=== FILE: README.md ===
# RetroSocial, modelled in Dafny

RetroSocial is a small social-posting application: an Express/MongoDB
backend that stores text-and-image posts, and a React client whose composer
compresses an attached image before posting. This project models the
self-contained logic of both halves and proves properties of it:

- **Resize** — the dimension rule of the composer's `compressImage`: a
  landscape image (width > height) has its width capped at 800, any other
  image its height capped at 600, the other axis scaled by the same factor.
  The factor is an exact rational (`real`); the canvas size is that value
  truncated, as setting the canvas `width`/`height` attributes (reflected
  WebIDL `unsigned long`s) does. Both sides never exceed 800, so neither
  the 32-bit wrap-around nor the 300 x 150 default that reflection stores
  for a value above 2^31 - 1 is ever reached.
- **Composer** — the composer's state (`content`, `imageFile`,
  `imagePreview`) and its transitions: file pick, paste, remove, typing and
  submit, with the submit guards and the payload sent to `addPost`.
- **PostCache** — the client's post list and `addPost`, `updatePost`,
  `deletePost` as sequence transformations, including their error paths.
- **Backend** — the `POST/GET/PUT/DELETE /posts` handlers over the posts
  collection, modelled as a finite map from `_id` to document.
- **PostCard** — `isAuthor`, the buttons a card shows, the time it shows
  (falling back to the timestamp in the ObjectId) and its edit mode.
- **Profile** — `isOwner`, the email prefix shared with the navigation
  bar's profile link, and `fetchUserPosts`.
- **QueryString** — how the `userEmail` query parameter travels:
  `encodeURIComponent` and `decodeURIComponent` over UTF-8 (RFC 3629), and
  the reading of a parameter by Express 4's default query parser (`qs`).
- **ParseInt** — JavaScript's `parseInt(s, 16)`, used for the time fallback.
- **ObjectIds**, **Json**, **Wrappers** — ObjectId text and timestamps,
  JavaScript values and documents, Option/Result.
- **Interplay** — lemmas that connect client and server, and findings
  that only show across the two.

Inputs the code receives from outside are parameters: the platform image
decoder's verdict and natural size (`PickedFile.natural`), the data URI the
file reader produces, whether `addPost` succeeds, the HTTP response the
client receives, the ObjectId the driver generates, and whether the database
call fails (`dbFails`).

Three behaviours of the code are modelled as the code has them: the scaled
axis is truncated, not rounded, and has no minimum of one pixel
(`Resize.WorkedSizes`: 1000 x 1 gives a canvas 0 pixels high); a failed
image compression leaves the composer as it was, including an image held
before; and nothing decides which of two overlapping compressions wins, nor
are previous preview URLs ever released.

## Model

| member | source | states |
|---|---|---|
| `ObjectIds.Parse` | index.js:63-64 | `new ObjectId(id)` succeeds exactly for 24 hexadecimal digits of either case, and the digits are the ObjectId's nibbles |
| `ObjectIds.ParseToHex` | index.js:49-50 | parsing the JSON text of an ObjectId gives back that ObjectId |
| `ObjectIds.BigEndianEncode` | src/components/PostCard.jsx:49 | reading back the big-endian hex encoding of a number gives the number |
| `ObjectIds.EncodeBigEndian` | src/components/PostCard.jsx:49 | encoding the value of a digit sequence gives back the digits |
| `ObjectIds.Seconds` | src/components/PostCard.jsx:49 | an ObjectId's timestamp fits 32 bits and is what its first 8 digits encode |
| `Json.SerializeMeaning` | index.js:49-50 | the client receives exactly a document's fields that are not `undefined`; each ObjectId arrives as text that parses back to the same ObjectId; every other value is unchanged |
| `Resize.Fit` | src/components/PostBox.jsx:33-48 | the selected axis becomes min(side, max), the aspect ratio is kept exactly, no side grows; this fixes the result |
| `Resize.FitUnchanged` | src/components/PostBox.jsx:38-48 | the size is unchanged if and only if the orientation-selected axis is within its maximum (a square takes the height branch) |
| `Resize.FitIdempotent` | src/components/PostBox.jsx:38-48 | applying the rule to its own rational output changes nothing |
| `Resize.OtherAxisUnbounded` | src/components/PostBox.jsx:38-48 | only the selected axis is bounded: 900 x 899 keeps a height above 600 |
| `Resize.ToUnsignedLong` | src/components/PostBox.jsx:49-50 | the converted value is below 2^32 and, in range, the input with its fraction dropped |
| `Resize.Reflect` | src/components/PostBox.jsx:49-50 | an attribute set from a value below 2^31 stores it with its fraction dropped; from a value in [2^31, 2^32) it stores the default |
| `Resize.CanvasIsTruncatedFit` | src/components/PostBox.jsx:38-50 | both sides of the fitted size are at most 800, so the canvas is the fitted size truncated, never a wrapped value or a default |
| `Resize.CanvasBounds` | src/components/PostBox.jsx:33-50 | the canvas is never larger than the image; landscape width <= 800, otherwise height <= 600 |
| `Resize.CanvasLandscapeCapped` | src/components/PostBox.jsx:38-50 | a landscape image wider than 800 gets a canvas 800 x floor(h * 800 / w) |
| `Resize.CanvasPortraitCapped` | src/components/PostBox.jsx:43-50 | any other image taller than 600 gets a canvas floor(w * 600 / h) x 600 |
| `Resize.CanvasWithinBound` | src/components/PostBox.jsx:38-50 | an image within its branch's bound keeps its pixel size |
| `Resize.WorkedSizes` | src/components/PostBox.jsx:33-50 | 1600x1200 -> 800x600, 400x300 kept, 300x1000 -> 180x600, 700x1001 -> 419x600, 1000x1 -> 800x0 |
| `Composer.Compress` | src/components/PostBox.jsx:24-65 | fails exactly when the image cannot be decoded; otherwise a JPEG of the same name whose size is the resize rule's `Resize.Fit` of the natural size, truncated to whole pixels, hence within the selected bound and no larger than the original |
| `Composer.PickFile` | src/components/PostBox.jsx:67-82 | keeps the composer invariant; no file clears the image; a failed compression changes nothing; a successful one holds exactly `Compress`'s result and its preview; text is untouched |
| `Composer.RemoveImage` | src/components/PostBox.jsx:171 | afterwards neither file nor preview is held and the text is kept |
| `Composer.IndexOf` | src/components/PostBox.jsx:87 | `indexOf` is -1 exactly when the pattern occurs nowhere, else its first occurrence |
| `Composer.Paste` | src/components/PostBox.jsx:84-103 | only the first item with an image type and a file is tried: if it compresses it is held and `preventDefault` is called, otherwise nothing changes; the browser's own paste always happens; text is kept |
| `Composer.PasteIntended` | src/components/PostBox.jsx:84-103 | corrected paste: the first item whose image compresses is held and the browser's paste is suppressed exactly then; with none, nothing changes |
| `Composer.PasteAgreesOnFirstSuccess` | src/components/PostBox.jsx:91-95 | when the first image item compresses, both hold the same image and differ only in the browser's paste |
| `Composer.PasteAfterDispatch` | src/components/PostBox.jsx:91-94 | an undecodable image before a good one leaves nothing held; text pasted alongside a good image still lands in the field |
| `Composer.PayloadDoc` | src/components/PostBox.jsx:116-141 | the JSON body holds the content and the author's email, `imageUrl` exactly when the payload has one (`null` or the data URI), and no other field |
| `Composer.Submit` | src/components/PostBox.jsx:105-151 | a post is sent iff the content is valid, a user is signed in and there is text or an image; it carries the user's email and the text; with an image, `imageUrl` is the data URI, or `null` exactly when reading failed; a read failure and a failed add are each reported; only a sent-and-added post empties the composer |
| `Composer.SubmitIntended` | src/components/PostBox.jsx:116-138 | corrected submit: a failed read is reported and nothing is sent, so `imageUrl` is never `null` and is present iff an image is held |
| `Composer.SubmitAgreesWhenReadable` | src/components/PostBox.jsx:116-138 | the two agree exactly unless a held image cannot be read |
| `Composer.ReadFailurePostsWithoutImage` | src/components/PostBox.jsx:120-138 | a held image that cannot be read is reported, yet the post is sent with `imageUrl: null` and the image is dropped |
| `Composer.Emptied` | src/components/PostBox.jsx:124-126 | the reset after a successful add leaves the text empty and no image held, and keeps the invariant |
| `Composer.Step` | src/components/PostBox.jsx:157-163 | typing replaces the text and leaves the image alone; picking, pasting and removing never touch the text; every action keeps the invariant |
| `Composer.RunConsistent` | src/components/PostBox.jsx:67-171 | over any sequence of user actions `imageFile` and `imagePreview` are both absent or both present, the preview showing the file |
| `PostCache.UpdateRequest` | src/context/PostContext.jsx:57-65 | the update request's body holds the content and no other field |
| `PostCache.StatusError` | src/context/PostContext.jsx:45-47 | a response raises no status error iff it arrived with a 2xx status |
| `PostCache.ParsedBody` | src/context/PostContext.jsx:45-48 | a body is obtained iff the status is 2xx and the body parses |
| `PostCache.SetContent` | src/context/PostContext.jsx:70-72 | same length; every post is replaced in place, only those with the id get the new content |
| `PostCache.Without` | src/context/PostContext.jsx:88 | exactly the posts whose id differs, with their multiplicities, in their original order |
| `PostCache.AddPost` | src/context/PostContext.jsx:36-55 | on success the parsed reply heads the otherwise unchanged list; any failure leaves the list untouched |
| `PostCache.UpdatePost` | src/context/PostContext.jsx:57-78 | on success only posts with the id change, and only by taking the reply's `content`; failure leaves the list untouched |
| `PostCache.DeletePost` | src/context/PostContext.jsx:80-93 | succeeds iff the status is 2xx, and the list is then exactly the old list without the posts with that id; failure leaves the list untouched |
| `PostCache.UpdateKeepsOtherFields` | src/context/PostContext.jsx:71 | an update changes no field other than `content` |
| `PostCache.UpdateAbsentId` | src/context/PostContext.jsx:70-72 | updating an id no post has leaves the list unchanged |
| `PostCache.DeleteAbsentId` | src/context/PostContext.jsx:88 | deleting an id no post has leaves the list unchanged |
| `PostCache.UpdatePostIntended` | src/context/PostContext.jsx:57-78 | corrected update: on success every post with the id shows the saved text, ids and other posts unchanged |
| `PostCache.AddPostIntended` | src/context/PostContext.jsx:36-55 | corrected add: the new head carries the sent fields and the id the server reports |
| `Backend.KeyOf` | index.js:64 | a route id selects a key iff it is 24 hexadecimal digits, and the key's nibbles are the digits' values |
| `Backend.InsertedId` | index.js:34 | a document is stored under its own `_id` unless that is absent, `null` or `undefined`, in which case under the generated ObjectId |
| `Backend.CreatePost` | index.js:31-40 | 201 iff the database works and the id is free; then exactly one document is added, holding the body's fields, and the reply reports its id; otherwise 500 and nothing changes |
| `Backend.Filter` | index.js:45-47 | the query selects exactly the documents of the given author when `userEmail` is truthy, and every document otherwise |
| `Backend.ListPosts` | index.js:43-55 | with a non-empty `userEmail` exactly that author's documents, with an absent or empty one all documents; nothing changes |
| `Backend.UpdatePost` | index.js:58-77 | 200 iff the id parses, the database works, a document has that id and the body does not change `_id`; 404 iff the id parses and no document has it; only a 200 changes the collection, and then only that document, by `$set` merge |
| `Backend.DeletePost` | index.js:80-95 | 200 iff the id parses and is present, removing exactly that document; 404 iff absent; otherwise 500; only 200 changes anything |
| `ParseInt.HexTextUnsigned` | src/components/PostCard.jsx:49 | `parseInt(t, 16)` of the lower-case hex text of a digit sequence is the sequence's value |
| `ParseInt.HexTextNegative` | src/components/PostCard.jsx:49 | with a leading '-', the value negated |
| `ParseInt.HexTextStops` | src/components/PostCard.jsx:49 | digits followed by a non-digit read only the digits, except that "0x"/"0X" alone is an empty prefix and gives NaN |
| `PostCard.Controls` | src/components/PostCard.jsx:72-106 | buttons are shown iff `isAuthor`; Edit/Delete outside edit mode, Save/Cancel in it |
| `PostCard.DisplayTime` | src/components/PostCard.jsx:49 | a truthy `createdAt` is shown as is; without one, a non-string `_id` makes rendering throw |
| `PostCard.DisplayTimeOfObjectId` | src/components/PostCard.jsx:49 | without `createdAt`, an ObjectId text `_id` shows 1000 x its timestamp, within [0, 1000 * (2^32 - 1)] |
| `PostCard.IdTimestamp` | src/components/PostCard.jsx:49 | `parseInt` base 16 of the first 8 characters of ObjectId text is the ObjectId's timestamp |
| `PostCard.Step` | src/components/PostCard.jsx:9-106 | only an author's clicks act; the text changes only by typing in edit mode; Edit enters edit mode when shown; a click on a button not shown changes nothing; Save calls update with the edited text and leaves edit mode only on success; Cancel leaves it without a call, keeping the text; Delete calls `deletePost` with the post's `_id`, only once confirmed, and never changes the card |
| `PostCard.DraftComesFromTyping` | src/components/PostCard.jsx:9-106 | over any sequence of actions the edited text is the one the card started with or one typed during the sequence, and only the author brings a card into edit mode |
| `PostCard.NonAuthorCardFixed` | src/components/PostCard.jsx:72-106 | whatever a non-author does to a card in view mode (as mounted), it never changes and makes no call |
| `PostCard.CancelKeepsDraft` | src/components/PostCard.jsx:9-10 | a card mounts in view mode with the post's content as its draft; after typing and Cancel, Edit shows the cancelled text again, not the post's |
| `Profile.EmailPrefix` | src/pages/Profile.jsx:39 | the result is a prefix of the email without '@', followed by '@' or the end |
| `Profile.OwnershipIgnoresDomain` | src/pages/Profile.jsx:39 | every account whose email has the local part `l` (without '@', possibly empty) owns the page `l`, whatever the domain; none owns the page named by its whole email |
| `Profile.RouteUsername` | src/App.jsx:22-28 | a matched `username` is one non-empty segment without '/', and the path holds nothing after it but slashes |
| `Profile.RouteAcceptsTrailingSlashes` | src/App.jsx:22-28 | every path `/profile/` + segment + any number of '/' is matched, with that segment |
| `Profile.NavbarLinkIsOwner` | src/components/Navbar.jsx:24 | following the navigation bar's profile link lands on a page where `isOwner` holds |
| `Profile.EmptyPrefixHasNoPage` | src/components/Navbar.jsx:24 | an empty email prefix gives a link that matches no profile page |
| `Profile.SlashPrefixHasNoPage` | src/components/Navbar.jsx:24 | an email prefix with '/' gives a link that matches no profile page |
| `Profile.InnerSlashHasNoPage` | src/components/Navbar.jsx:24 | any email whose local part has a '/' followed later by a character other than '/' gets a link that matches no profile page |
| `Profile.UserQuery` | src/pages/Profile.jsx:21 | the server reads the signed-in user's email from the request when it is plain text (no '#', '&', '+', '%' or "]=") |
| `Profile.UserQueryIntended` | src/pages/Profile.jsx:21 | with the email encoded, the server reads exactly the email, whatever it holds |
| `Profile.FetchUserPosts` | src/pages/Profile.jsx:14-30 | ends with `loading` false; signed out it changes nothing else; the parsed reply becomes the list whatever its status; a failure sets the error and keeps the list |
| `QueryString.ReceivedParam` | index.js:45 | plain text (no '#', '&', '+', '%' or "]=") is read as written, and the parameter goes unread only when its text holds "]=" |
| `QueryString.ReceivedStopsAt` | index.js:45 | a '#' or '&' ends the value: whatever follows it is not read |
| `QueryString.Utf8Decodes` | src/pages/Profile.jsx:21 | the UTF-8 octets of a non-ASCII scalar announce their count, continue with continuation octets and spell the scalar back |
| `QueryString.EncodeComponent` | src/pages/Profile.jsx:21 | encoded text holds only unreserved characters and the '%' of escapes |
| `QueryString.DecodeEncode` | src/pages/Profile.jsx:21 | `decodeURIComponent(encodeURIComponent(s))` is `s` for every string |
| `QueryString.DecodePlain` | index.js:45 | text without '%' decodes to itself |
| `QueryString.EncodedReceived` | index.js:45 | an encoded value is read as the text that was encoded |
| `QueryString.PlusesReceived` | index.js:45 | text with no '#', '&', '%' or ']' is read with each '+' as a space |
| `QueryString.PlusReadAsSpace` | index.js:45 | such text holding a '+' is read as different text, with a space at that position |
| `Interplay.SerializeStored` | index.js:49-50 | a stored payload comes back as the payload with its id as text |
| `Interplay.SubmittedPostReachesProfile` | index.js:33-49 | a submitted post the server accepts shows its ObjectId's creation time; it is listed on its author's profile whenever the query carries the email intact, and always with the encoded query |
| `Interplay.SubmitterIsAuthor` | src/components/PostCard.jsx:12 | the post a signed-in user submits is authored, in the card's sense, by that user and by nobody else, nor by a signed-out visitor |
| `Interplay.PlusAddressMissesOwnPosts` | src/pages/Profile.jsx:21 | as written, a user whose email holds a '+' is shown none of their own posts on their profile |
| `Interplay.EditReachesStore` | index.js:58-72 | a card's saved edit sets the stored content and keeps every other field |
| `Interplay.UpdateCachesUndefined` | src/context/PostContext.jsx:69-72 | after the server's real reply, the cached post's content is `undefined`, not the saved text |
| `Interplay.IntendedUpdateMatchesStore` | src/context/PostContext.jsx:69-72 | with the corrected update the cached content equals the stored content |
| `Interplay.AddCachesReply` | src/context/PostContext.jsx:48-49 | the cached head after an add has no content and no `_id`, and deleting the new post by id leaves it in the list |
| `Interplay.IntendedAddMatchesStore` | src/context/PostContext.jsx:48-49 | with the corrected add the cached head is exactly the document the server lists, and deleting it removes it |

## Findings

| source | as written | input that shows it | evidently intended | confidence | as-written member | corrected member |
|---|---|---|---|---|---|---|
| src/context/PostContext.jsx:69-72 | `PostCache.UpdatePost` copies `data.content` from the reply into the cached post | any successful edit: the server replies `{ message }` only (index.js:72) | the cached post shows the content just saved | not executed; high | `Interplay.UpdateCachesUndefined` | `PostCache.UpdatePostIntended` |
| src/context/PostContext.jsx:48-49 | `PostCache.AddPost` prepends the reply object to the list | any successful create: the server replies `{ message, postId }` (index.js:35) | the list gains the created post, with its content and `_id` | not executed; high | `Interplay.AddCachesReply` | `PostCache.AddPostIntended` |
| src/components/PostBox.jsx:120-138 | `onloadend` sends the post whatever the read's outcome; `onerror` only alerts | an image whose read fails: the `error` event is followed by `loadend` with `reader.result` null | a failed read sends nothing, so no post loses its image | not executed; high | `Composer.ReadFailurePostsWithoutImage` | `Composer.SubmitIntended` |
| src/components/PostBox.jsx:91-94 | `preventDefault` and the next item are reached only after `await compressImage` | a clipboard with text and an image: the text is still pasted; an undecodable image before a good one: nothing is held | the first compressible image is held and the text paste suppressed | not executed; medium | `Composer.PasteAfterDispatch` | `Composer.PasteIntended` |
| src/pages/Profile.jsx:21 | the email is written into the query string unencoded | a@x.com with a '+', such as a+b@x.com: the server reads "a b@x.com" | the server reads the user's own email | not executed; high | `Interplay.PlusAddressMissesOwnPosts` | `Profile.UserQueryIntended` |

## Left out

- Image decoding, canvas drawing and JPEG encoding at quality 0.7 are platform codecs: the decoder's verdict and natural size are an input, the encoder is not modelled (a 0-pixel canvas still resolves, with a `null` blob).
- `URL.createObjectURL` is a platform call: a preview is modelled as a handle naming the file it shows.
- The data URI read from the held file is an input of `Composer.Submit`, not computed.
- Overlapping asynchronous compressions are not modelled: every handler is one atomic transition, and the code has no rule for which result survives.
- Alerts, console output, `event.preventDefault` beyond its flag, the `onPostCreated`/`onPostModified` callbacks and `window.confirm` (an input of a Delete click) are UI.
- `Composer.Paste`: models browsers where the clipboard can no longer be read once the paste event has been dispatched; text the browser's own paste inserts is not computed, and arrives as a typing event.
- `Composer.Submit`: content length is counted in characters, while the schema counts UTF-16 code units, so text with characters outside the Basic Multilingual Plane is treated more leniently than in the source.
- `Composer.Submit`: the form field's `required` rule is not modelled separately; with a schema resolver it does not alter the outcome, since the submit guard refuses the same case.
- `Resize.Fit`: uses exact rationals; JavaScript's floating-point product `h * (800 / w)` can differ in the last bit, which truncation can turn into one pixel.
- `PostCard.DisplayTime`: `new Date(createdAt)` and locale formatting are not modelled; NaN and infinities are not numbers in this model.
- `Profile.NavbarLinkIsOwner`: holds only for email prefixes that are a path segment other than "", "." and "..", without '/', '\', '?', '#', '%', tab or line breaks; other prefixes change on the way through the URL (`Profile.EmptyPrefixHasNoPage`, `Profile.SlashPrefixHasNoPage`); the URL parser's percent-encoding of spaces and similar characters and the router's decoding are not modelled.
- `Profile.UserQuery`: states the outcome for plain text only; `qs`'s handling of "%5B"/"%5D" before it looks for "]=", a parameter given twice (an array), and the URL parser's own escaping and stripping of tabs, line breaks and trailing spaces are not modelled. The parser is Express 4's default (`qs`); Express 5's differs in its decoding fallback.
- `fetchAllPosts` (src/context/PostContext.jsx:15-34) and the home page's fetch replace the whole list with the reply; not modelled beyond `Profile.FetchUserPosts`, which has the same shape.
- `Backend.ListPosts`: the collection's order of results is not modelled (a set); array-valued fields and a query parameter given twice (an array) are not modelled, so `Backend.Filter` matches by equality only.
- `Profile.RouteUsername`: models the lower-case `/profile/` paths the navigation bar links to; the router's case-insensitive matching and its percent-decoding of the parameter are not modelled.
- `Backend.UpdatePost`: `$set` field names are treated as top-level names; dotted paths and `$`-prefixed names are not modelled, and an empty `$set` is accepted as MongoDB 5.0 and later do.
- `Backend.CreatePost`: the generated ObjectId is an input; its clock and random parts are not modelled.
- `new ObjectId` of a 12-character string, which older driver versions accept as raw bytes, is not modelled: only 24-digit hex text is.
- Express wiring, CORS, the MongoDB connection, `listen` and the health route are I/O; a database failure is the `dbFails` input.
- Firebase authentication is external: the signed-in user is an optional email.
- Form validation in the login and registration pages, routing, rendering and the edit-profile page are not part of this model.

=== FILE: backend.dfy ===
/**
 * The REST handlers for `/posts` over the posts collection, which is
 * modelled as a finite map from `_id` values to documents. A failure of the
 * database call is a parameter (`dbFails`); every failure inside a handler
 * answers 500 and leaves the collection as it was.
 */
module Backend {
  import opened Wrappers
  import opened Json
  import ObjectIds

  const StatusOk: nat := 200
  const StatusCreated: nat := 201
  const StatusNotFound: nat := 404
  const StatusServerError: nat := 500

  /** The posts collection: every document under the value of its `_id`. */
  type Store = map<Value, Doc>

  /** Every document is filed under its own `_id`. */
  predicate WellKeyed(st: Store)
  {
    forall k | k in st :: Lookup(st[k], "_id") == k
  }

  /** A reply body: a JSON object, or the array of documents a query found
      (as a set: the collection's natural order is not modelled). */
  datatype Payload = Message(fields: Doc) | Listing(docs: set<Doc>)

  datatype Reply = Reply(status: nat, body: Payload)

  /** The collection after a request, and the reply. */
  datatype Handled = Handled(store: Store, reply: Reply)

  function Fail(st: Store, message: string): (h: Handled)
    ensures h.store == st && h.reply.status == StatusServerError
  {
    Handled(st, Reply(StatusServerError, Message(map["error" := Str(message)])))
  }

  function NotFound(st: Store): (h: Handled)
    ensures h.store == st && h.reply.status == StatusNotFound
  {
    Handled(st, Reply(StatusNotFound, Message(map["message" := Str("Post not found")])))
  }

  /** `new ObjectId(id)` turned into the key it selects; None when it throws,
      which it does unless the id is 24 hexadecimal digits. */
  function KeyOf(id: string): (k: Option<Value>)
    ensures k.Some? <==> |id| == 24 && forall i | 0 <= i < 24 :: ObjectIds.IsHexDigit(id[i])
    ensures k.Some? ==> k.value.Oid? && forall i | 0 <= i < 24 :: ObjectIds.HexValue(id[i]) == Some(k.value.id[i])
  {
    match ObjectIds.Parse(id)
    case Some(o) => Some(Oid(o))
    case None => None
  }

  /** The `_id` `insertOne` stores a document under: its own, unless it is
      `null` or `undefined` (`doc._id == null`), in which case a newly
      generated ObjectId (`newId`, which the driver draws from the clock and
      randomness). */
  function InsertedId(body: Doc, newId: ObjectIds.Oid): (id: Value)
    ensures id != Null && id != Undefined
    ensures Lookup(body, "_id") !in {Null, Undefined} ==> id == body["_id"]
    ensures Lookup(body, "_id") in {Null, Undefined} ==> id == Oid(newId)
  {
    if "_id" in body && body["_id"] != Null && body["_id"] != Undefined then body["_id"] else Oid(newId)
  }

  /** POST /posts: stores the body as one new document and answers 201 with
      its id; an id already taken (a duplicate key) or a database failure
      answers 500 and stores nothing. */
  function CreatePost(st: Store, body: Doc, newId: ObjectIds.Oid, dbFails: bool): (h: Handled)
    requires WellKeyed(st)
    ensures WellKeyed(h.store)
    ensures h.reply.status in {StatusCreated, StatusServerError}
    ensures h.reply.status == StatusCreated <==> !dbFails && InsertedId(body, newId) !in st
    ensures h.reply.status != StatusCreated ==> h.store == st
    ensures h.reply.status == StatusCreated ==>
              var id := InsertedId(body, newId);
              && h.store.Keys == st.Keys + {id}
              && (forall k | k in st :: h.store[k] == st[k])
              && (forall f | f != "_id" :: Lookup(h.store[id], f) == Lookup(body, f))
              && h.reply.body.Message? && Lookup(h.reply.body.fields, "postId") == id
  {
    var id := InsertedId(body, newId);
    if dbFails || id in st then Fail(st, "Failed to add post")
    else
      Handled(st[id := body["_id" := id]],
              Reply(StatusCreated, Message(map["message" := Str("Post added successfully"), "postId" := id])))
  }

  /** MongoDB's equality match: every field of the query holds the same
      value in the document (array fields are not modelled). */
  predicate Matches(d: Doc, query: Doc)
  {
    forall f | f in query :: Lookup(d, f) == query[f]
  }

  /** The query object GET /posts builds: `{ userEmail }` when the
      parameter is truthy, `{}` otherwise. */
  function Filter(userEmail: Option<string>): (query: Doc)
    ensures forall d :: Matches(d, query) <==>
              (userEmail.Some? && Truthy(Str(userEmail.value)) ==> Lookup(d, "userEmail") == Str(userEmail.value))
  {
    if userEmail.Some? && Truthy(Str(userEmail.value)) then map["userEmail" := Str(userEmail.value)] else map[]
  }

  /** GET /posts[?userEmail=...]: with a non-empty `userEmail` exactly the
      documents of that author, otherwise (absent or empty) every document. */
  function ListPosts(st: Store, userEmail: Option<string>, dbFails: bool): (h: Handled)
    ensures h.store == st
    ensures h.reply.status == (if dbFails then StatusServerError else StatusOk)
    ensures !dbFails ==> h.reply.body.Listing?
    ensures !dbFails && userEmail.Some? && userEmail.value != "" ==>
              forall d :: d in h.reply.body.docs <==> d in st.Values && Lookup(d, "userEmail") == Str(userEmail.value)
    ensures !dbFails && (userEmail.None? || userEmail.value == "") ==> h.reply.body.docs == st.Values
  {
    if dbFails then Fail(st, "Failed to fetch posts")
    else Handled(st, Reply(StatusOk, Listing(set d | d in st.Values && Matches(d, Filter(userEmail)))))
  }

  /** PUT /posts/:id with `{ $set: body }`: an id that is not an ObjectId, a
      change of the immutable `_id` or a database failure answers 500; an id
      no document has answers 404; otherwise the body's fields overwrite
      those of that one document, which keeps all its other fields. Only a
      200 changes the collection. */
  function UpdatePost(st: Store, id: string, body: Doc, dbFails: bool): (h: Handled)
    requires WellKeyed(st)
    ensures WellKeyed(h.store)
    ensures h.reply.status in {StatusOk, StatusNotFound, StatusServerError}
    ensures h.reply.status == StatusNotFound <==> !dbFails && KeyOf(id).Some? && KeyOf(id).value !in st
    ensures h.reply.status == StatusOk <==>
              && !dbFails && KeyOf(id).Some? && KeyOf(id).value in st
              && ("_id" in body ==> body["_id"] == KeyOf(id).value)
    ensures h.reply.status != StatusOk ==> h.store == st
    ensures h.reply.status == StatusOk ==>
              var k := KeyOf(id).value;
              && k in st
              && h.store.Keys == st.Keys
              && (forall k' | k' in st && k' != k :: h.store[k'] == st[k'])
              && (forall f :: Lookup(h.store[k], f) == if f in body then body[f] else Lookup(st[k], f))
  {
    match KeyOf(id)
    case None => Fail(st, "Failed to update post")
    case Some(k) =>
      if dbFails then Fail(st, "Failed to update post")
      else if k !in st then NotFound(st)
      else if "_id" in body && body["_id"] != k then Fail(st, "Failed to update post")
      else Handled(st[k := st[k] + body], Reply(StatusOk, Message(map["message" := Str("Post updated successfully")])))
  }

  /** DELETE /posts/:id: removes exactly the document with that id; an id
      no document has answers 404, an id that is not an ObjectId or a
      database failure answers 500, and both leave the collection as it was. */
  function DeletePost(st: Store, id: string, dbFails: bool): (h: Handled)
    requires WellKeyed(st)
    ensures WellKeyed(h.store)
    ensures h.reply.status in {StatusOk, StatusNotFound, StatusServerError}
    ensures h.reply.status == StatusNotFound <==> !dbFails && KeyOf(id).Some? && KeyOf(id).value !in st
    ensures h.reply.status == StatusOk <==> !dbFails && KeyOf(id).Some? && KeyOf(id).value in st
    ensures h.reply.status != StatusOk ==> h.store == st
    ensures h.reply.status == StatusOk ==>
              && h.store.Keys == st.Keys - {KeyOf(id).value}
              && forall k | k in h.store :: h.store[k] == st[k]
  {
    match KeyOf(id)
    case None => Fail(st, "Failed to delete post")
    case Some(k) =>
      if dbFails then Fail(st, "Failed to delete post")
      else if k !in st then NotFound(st)
      else Handled(st - {k}, Reply(StatusOk, Message(map["message" := Str("Post deleted successfully")])))
  }
}

=== FILE: composer.dfy ===
/**
 * The post composer: the text field, the held compressed image and its
 * preview handle, and the transitions that change them (picking a file,
 * pasting, removing the image, typing, submitting). Each handler is an
 * atomic transition; the image decoder and the data-URI reader are
 * parameters.
 */
module Composer {
  import opened Wrappers
  import Resize
  import Json

  /** The post schema's maximum content length. */
  const MaxContentLength: nat := 280

  /** The type every compressed file is given. */
  const JpegType: string := "image/jpeg"

  /** A file as the picker or the clipboard hands it over: its name and, when
      the platform decoder can read it, its natural size in pixels. */
  datatype PickedFile = PickedFile(name: string, natural: Option<Resize.Canvas>)

  /** The JPEG file `compressImage` resolves with: same name, the canvas size. */
  datatype CompressedFile = CompressedFile(name: string, mime: string, width: nat, height: nat)

  datatype ImageError = DecodeFailed

  /** An object URL created for a compressed file. */
  datatype Preview = ObjectUrl(target: CompressedFile)

  datatype State = State(content: string, imageFile: Option<CompressedFile>, imagePreview: Option<Preview>)

  const Initial: State := State("", None, None)

  /** The composer's invariant: a file is held exactly when a preview is
      shown, and the preview shows that file. */
  predicate Consistent(st: State)
  {
    || (st.imageFile.None? && st.imagePreview.None?)
    || (st.imageFile.Some? && st.imagePreview == Some(ObjectUrl(st.imageFile.value)))
  }

  /** `compressImage`: fails exactly when the image cannot be decoded;
      otherwise yields a JPEG of the same name, drawn at the resize rule's
      size truncated to whole pixels, so its orientation-selected axis is
      within its maximum and it is no larger than the original. */
  function Compress(f: PickedFile): (r: Result<CompressedFile, ImageError>)
    ensures r.Failure? <==> f.natural.None?
    ensures r.Success? ==> r.value.name == f.name && r.value.mime == JpegType
    ensures r.Success? && f.natural.value.width > f.natural.value.height ==> r.value.width <= 800
    ensures r.Success? && f.natural.value.width <= f.natural.value.height ==> r.value.height <= 600
    ensures r.Success? ==> r.value.width <= f.natural.value.width && r.value.height <= f.natural.value.height
    ensures r.Success? ==>
              var fit := Resize.Fit(Resize.Size(f.natural.value.width as real, f.natural.value.height as real));
              r.value.width == fit.width.Floor && r.value.height == fit.height.Floor
  {
    match f.natural
    case None => Failure(DecodeFailed)
    case Some(size) =>
      var c := Resize.CanvasFor(size.width, size.height);
      Resize.CanvasBounds(size.width, size.height);
      Resize.CanvasIsTruncatedFit(size.width, size.height);
      Success(CompressedFile(f.name, JpegType, c.width, c.height))
  }

  function Hold(st: State, f: CompressedFile): State
  {
    st.(imageFile := Some(f), imagePreview := Some(ObjectUrl(f)))
  }

  function Clear(st: State): State
  {
    st.(imageFile := None, imagePreview := None)
  }

  /** `handleImageChange`: no file clears the image; a file that cannot be
      processed leaves the state as it was; otherwise its compressed form and
      a preview of it are held. The text is never touched. */
  function PickFile(st: State, file: Option<PickedFile>): (r: State)
    ensures Consistent(st) ==> Consistent(r)
    ensures r.content == st.content
    ensures file.None? ==> r.imageFile.None? && r.imagePreview.None?
    ensures file.Some? && file.value.natural.None? ==> r == st
    ensures file.Some? && file.value.natural.Some? ==>
              r.imageFile.Some? && r.imageFile.value.name == file.value.name && r.imageFile.value.mime == JpegType
    ensures file.Some? && Compress(file.value).Success? ==>
              r.imageFile == Some(Compress(file.value).value)
              && r.imagePreview == Some(ObjectUrl(Compress(file.value).value))
  {
    match file
    case None => Clear(st)
    case Some(f) =>
      match Compress(f)
      case Success(c) => Hold(st, c)
      case Failure(_) => st
  }

  /** The remove button: neither a file nor a preview remains. */
  function RemoveImage(st: State): (r: State)
    ensures Consistent(r)
    ensures r.imageFile.None? && r.imagePreview.None? && r.content == st.content
  {
    Clear(st)
  }

  // ---------------------------------------------------------------------
  // Paste

  /** A clipboard item: its MIME type and the file it yields, if any. */
  datatype ClipItem = ClipItem(kind: string, file: Option<PickedFile>)

  predicate OccursAt(s: string, pat: string, k: nat)
  {
    k + |pat| <= |s| && s[k..k + |pat|] == pat
  }

  /** `String.prototype.indexOf`: the first position where `pat` occurs, -1
      when it occurs nowhere. */
  function IndexOf(s: string, pat: string): (r: int)
    ensures r == -1 <==> forall k: nat :: !OccursAt(s, pat, k)
    ensures r >= 0 ==> OccursAt(s, pat, r) && forall k: nat | k < r :: !OccursAt(s, pat, k)
  {
    IndexFrom(s, pat, 0)
  }

  function IndexFrom(s: string, pat: string, from: nat): (r: int)
    ensures r == -1 <==> forall k: nat | from <= k :: !OccursAt(s, pat, k)
    ensures r >= 0 ==> from <= r && OccursAt(s, pat, r) && forall k: nat | from <= k < r :: !OccursAt(s, pat, k)
    decreases |s| - from
  {
    if from + |pat| > |s| then -1
    else if s[from..from + |pat|] == pat then assert OccursAt(s, pat, from); from
    else IndexFrom(s, pat, from + 1)
  }

  /** An item the paste loop stops at: its type mentions "image" and it
      yields a file. */
  predicate Candidate(item: ClipItem)
  {
    IndexOf(item.kind, "image") != -1 && item.file.Some?
  }

  /** What the paste loop takes from one item: the compressed image, when the
      item is a candidate and compression succeeds. */
  function Take(item: ClipItem): Option<CompressedFile>
  {
    if Candidate(item) then
      match Compress(item.file.value)
      case Success(c) => Some(c)
      case Failure(_) => None
    else None
  }

  /** `i` is the first candidate among the clipboard items. */
  predicate FirstCandidate(items: seq<ClipItem>, i: int)
  {
    0 <= i < |items| && Candidate(items[i]) && forall j | 0 <= j < i :: !Candidate(items[j])
  }

  /** `i` is the first item whose image the paste loop would take if it went
      on past failures with the clipboard still readable. */
  predicate FirstTaken(items: seq<ClipItem>, i: nat)
  {
    i < |items| && Take(items[i]).Some? && forall j | 0 <= j < i :: Take(items[j]).None?
  }

  /** `preventDefaultCalled`: the handler called `event.preventDefault()`.
      `defaultPaste`: the browser's own paste (of any text on the clipboard
      into the field) takes place. */
  datatype PasteOutcome = PasteOutcome(state: State, preventDefaultCalled: bool, defaultPaste: bool)

  /** `handlePaste` as written. The loop reaches its first `await` at the
      first candidate; by the time compression settles the paste event has
      been dispatched, so the browser has already pasted, `preventDefault`
      no longer has any effect, and the clipboard items no longer yield
      files. Hence only the first candidate is tried: if it compresses it is
      held, otherwise nothing changes, whatever the later items hold. */
  function Paste(st: State, items: seq<ClipItem>): (r: PasteOutcome)
    ensures r.defaultPaste
    ensures r.preventDefaultCalled <==> exists i :: FirstCandidate(items, i) && Take(items[i]).Some?
    ensures forall i | FirstCandidate(items, i) ::
              r.state == if Take(items[i]).Some? then Hold(st, Take(items[i]).value) else st
    ensures (forall j | 0 <= j < |items| :: !Candidate(items[j])) ==> r.state == st
    ensures Consistent(st) ==> Consistent(r.state)
    ensures r.state.content == st.content
  {
    if |items| == 0 then PasteOutcome(st, false, true)
    else if Candidate(items[0]) then
      assert FirstCandidate(items, 0);
      assert forall k | FirstCandidate(items, k) :: k == 0;
      match Take(items[0])
      case Some(c) => PasteOutcome(Hold(st, c), true, true)
      case None => PasteOutcome(st, false, true)
    else
      var rest := Paste(st, items[1..]);
      CandidateShift(items);
      rest
  }

  /** Skipping a first item that is no candidate shifts the first candidate
      by one place. */
  lemma CandidateShift(items: seq<ClipItem>)
    requires |items| > 0 && !Candidate(items[0])
    ensures forall k | FirstCandidate(items, k) :: k > 0 && FirstCandidate(items[1..], k - 1)
    ensures forall k | FirstCandidate(items[1..], k) :: FirstCandidate(items, k + 1)
    ensures (forall j | 0 <= j < |items| :: !Candidate(items[j])) ==> forall j | 0 <= j < |items[1..]| :: !Candidate(items[1..][j])
  {
    assert forall j | 1 <= j < |items| :: items[j] == items[1..][j - 1];
  }

  /** `handlePaste` as evidently intended: items that fail are skipped, the
      first item that yields a compressible image is held, and then the
      browser's own paste is suppressed. When no item qualifies the state is
      unchanged and the browser pastes as usual. */
  function PasteIntended(st: State, items: seq<ClipItem>): (r: PasteOutcome)
    ensures r.preventDefaultCalled <==> exists i :: 0 <= i < |items| && Take(items[i]).Some?
    ensures r.defaultPaste <==> !r.preventDefaultCalled
    ensures !r.preventDefaultCalled ==> r.state == st
    ensures r.preventDefaultCalled ==> exists i: nat :: FirstTaken(items, i) && r.state == Hold(st, Take(items[i]).value)
    ensures Consistent(st) ==> Consistent(r.state)
    ensures r.state.content == st.content
  {
    if |items| == 0 then PasteOutcome(st, false, true)
    else
      match Take(items[0])
      case Some(c) =>
        assert FirstTaken(items, 0);
        PasteOutcome(Hold(st, c), true, false)
      case None =>
        var rest := PasteIntended(st, items[1..]);
        TakenShift(items);
        if rest.preventDefaultCalled then
          var i: nat :| FirstTaken(items[1..], i) && rest.state == Hold(st, Take(items[1..][i]).value);
          assert FirstTaken(items, i + 1) && items[1..][i] == items[i + 1];
          rest
        else
          rest
  }

  /** Skipping a first item that yields nothing shifts the taken items by
      one place. */
  lemma TakenShift(items: seq<ClipItem>)
    requires |items| > 0 && Take(items[0]).None?
    ensures (exists i :: 0 <= i < |items| && Take(items[i]).Some?)
            <==> (exists i :: 0 <= i < |items[1..]| && Take(items[1..][i]).Some?)
    ensures forall i: nat | FirstTaken(items[1..], i) :: FirstTaken(items, i + 1)
  {
    assert forall i | 1 <= i < |items| :: items[i] == items[1..][i - 1];
  }

  /** When the first candidate compresses, the handler as written holds the
      same image as the intended one; it differs only in still letting the
      browser paste. */
  lemma PasteAgreesOnFirstSuccess(st: State, items: seq<ClipItem>, i: nat)
    requires FirstCandidate(items, i) && Take(items[i]).Some?
    ensures Paste(st, items).state == PasteIntended(st, items).state == Hold(st, Take(items[i]).value)
    ensures Paste(st, items).defaultPaste && !PasteIntended(st, items).defaultPaste
  {
    assert FirstTaken(items, i);
    var r := PasteIntended(st, items);
    var k: nat :| FirstTaken(items, k) && r.state == Hold(st, Take(items[k]).value);
    assert k == i;
  }

  /** Where the handler as written departs from its intent: an undecodable
      image followed by a good one holds nothing, and text pasted together
      with a good image still lands in the field. */
  lemma PasteAfterDispatch()
    ensures
      var bad := ClipItem("image/png", Some(PickedFile("a.png", None)));
      var good := ClipItem("image/png", Some(PickedFile("b.png", Some(Resize.Canvas(10, 10)))));
      var text := ClipItem("text/plain", None);
      && Paste(Initial, [bad, good]).state == Initial
      && PasteIntended(Initial, [bad, good]).state.imageFile.Some?
      && Paste(Initial, [text, good]).preventDefaultCalled
      && Paste(Initial, [text, good]).defaultPaste
      && !PasteIntended(Initial, [text, good]).defaultPaste
  {
    var bad := ClipItem("image/png", Some(PickedFile("a.png", None)));
    var good := ClipItem("image/png", Some(PickedFile("b.png", Some(Resize.Canvas(10, 10)))));
    var text := ClipItem("text/plain", None);
    assert OccursAt("image/png", "image", 0);
    assert Candidate(bad) && Candidate(good) && !Candidate(text);
    assert FirstCandidate([bad, good], 0);
    assert FirstCandidate([text, good], 1);
    assert Take(good).Some?;
    assert Take([bad, good][1]).Some?;
    PasteAgreesOnFirstSuccess(Initial, [text, good], 1);
  }

  // ---------------------------------------------------------------------
  // Submit

  /** The `imageUrl` of a payload: left out (no image held), `null` (the file
      reader produced no result), or a data URI. */
  datatype ImageUrl = Omitted | NullUrl | DataUri(uri: string)

  /** The payload handed to `addPost`. */
  datatype NewPost = NewPost(content: string, userEmail: string, imageUrl: ImageUrl)

  /** The JSON body `addPost` sends for a payload: the content, the author
      and, unless it is left out, the image URL; nothing else. */
  function PayloadDoc(p: NewPost): (d: Json.Doc)
    ensures Json.Lookup(d, "content") == Json.Str(p.content)
    ensures Json.Lookup(d, "userEmail") == Json.Str(p.userEmail)
    ensures "imageUrl" in d <==> !p.imageUrl.Omitted?
    ensures p.imageUrl.NullUrl? ==> d["imageUrl"] == Json.Null
    ensures p.imageUrl.DataUri? ==> d["imageUrl"] == Json.Str(p.imageUrl.uri)
    ensures d.Keys <= {"content", "userEmail", "imageUrl"}
  {
    var base := map["content" := Json.Str(p.content), "userEmail" := Json.Str(p.userEmail)];
    match p.imageUrl
    case Omitted => base
    case NullUrl => base["imageUrl" := Json.Null]
    case DataUri(url) => base["imageUrl" := Json.Str(url)]
  }

  /** What the user is told. */
  datatype Alert =
    | TooLong        // the schema's message under the field; the submit handler is not run
    | NotLoggedIn
    | NothingToPost  // neither text nor an image
    | ReadFailed     // the held image could not be read as a data URI
    | AddFailed      // `addPost` threw

  datatype SubmitOutcome = SubmitOutcome(state: State, sent: Option<NewPost>, alerts: seq<Alert>)

  /** The gate in front of `addPost`: valid content, a user, and something to post. */
  predicate MaySend(st: State, user: Option<string>)
  {
    |st.content| <= MaxContentLength && user.Some? && (st.content != "" || st.imageFile.Some?)
  }

  /** The composer after `addPost` succeeded: the form is reset, and the
      image branch also drops the file and its preview. */
  function Emptied(st: State): (r: State)
    ensures r.content == "" && r.imageFile.None?
    ensures Consistent(st) ==> Consistent(r)
  {
    if st.imageFile.Some? then Clear(st.(content := "")) else st.(content := "")
  }

  /** The image URL the payload carries: left out without an image, else the
      reader's result, which is `null` when the read failed. */
  function UrlOf(st: State, dataUrl: Option<string>): ImageUrl
  {
    if st.imageFile.None? then Omitted
    else if dataUrl.Some? then DataUri(dataUrl.value)
    else NullUrl
  }

  /** Form validation followed by `onSubmit` as written. `user` is the
      signed-in user's email, `dataUrl` the result of reading the held file
      (None when the reader fails), `added` whether `addPost` succeeds. Past
      the gate a post is always sent, by the current user, with exactly the
      typed text. A failed read is reported, yet `onloadend` still fires
      after `onerror` and sends the post with `imageUrl: null`. Success
      empties the composer; otherwise it is left as it was. */
  function Submit(st: State, user: Option<string>, dataUrl: Option<string>, added: bool): (o: SubmitOutcome)
    ensures o.sent.Some? <==> MaySend(st, user)
    ensures o.sent.Some? ==> o.sent.value.userEmail == user.value && o.sent.value.content == st.content
    ensures o.sent.Some? ==> (o.sent.value.imageUrl.Omitted? <==> st.imageFile.None?)
    ensures o.sent.Some? && st.imageFile.Some? ==>
              (o.sent.value.imageUrl.NullUrl? <==> dataUrl.None?)
              && (dataUrl.Some? ==> o.sent.value.imageUrl == DataUri(dataUrl.value))
    ensures ReadFailed in o.alerts <==> MaySend(st, user) && st.imageFile.Some? && dataUrl.None?
    ensures AddFailed in o.alerts <==> o.sent.Some? && !added
    ensures o.alerts == [] <==> o.sent.Some? && added && (st.imageFile.Some? ==> dataUrl.Some?)
    ensures o.sent.Some? && added ==> o.state.content == "" && o.state.imageFile.None?
    ensures !(o.sent.Some? && added) ==> o.state == st
    ensures Consistent(st) ==> Consistent(o.state)
    ensures user.None? && |st.content| <= MaxContentLength ==> o.alerts == [NotLoggedIn]
  {
    if |st.content| > MaxContentLength then SubmitOutcome(st, None, [TooLong])
    else if user.None? then SubmitOutcome(st, None, [NotLoggedIn])
    else if st.content == "" && st.imageFile.None? then SubmitOutcome(st, None, [NothingToPost])
    else
      var post := NewPost(st.content, user.value, UrlOf(st, dataUrl));
      var readAlerts := if st.imageFile.Some? && dataUrl.None? then [ReadFailed] else [];
      if added then SubmitOutcome(Emptied(st), Some(post), readAlerts)
      else SubmitOutcome(st, Some(post), readAlerts + [AddFailed])
  }

  /** `onSubmit` as evidently intended: a failed read is reported and
      nothing is sent, so a post never goes out without the image it was
      composed with. Every alert leaves the composer as it was. */
  function SubmitIntended(st: State, user: Option<string>, dataUrl: Option<string>, added: bool): (o: SubmitOutcome)
    ensures o.sent.Some? <==> MaySend(st, user) && (st.imageFile.Some? ==> dataUrl.Some?)
    ensures o.sent.Some? ==> o.sent.value.userEmail == user.value && o.sent.value.content == st.content
    ensures o.sent.Some? ==> !o.sent.value.imageUrl.NullUrl?
    ensures o.sent.Some? ==> (o.sent.value.imageUrl.DataUri? <==> st.imageFile.Some?)
    ensures o.sent.Some? && st.imageFile.Some? ==> o.sent.value.imageUrl == DataUri(dataUrl.value)
    ensures o.alerts == [] <==> o.sent.Some? && added
    ensures o.alerts != [] ==> o.state == st
    ensures o.alerts == [] ==> o.state.content == "" && o.state.imageFile.None?
    ensures Consistent(st) ==> Consistent(o.state)
  {
    if MaySend(st, user) && st.imageFile.Some? && dataUrl.None? then SubmitOutcome(st, None, [ReadFailed])
    else Submit(st, user, dataUrl, added)
  }

  /** The two differ only when the held image cannot be read. */
  lemma SubmitAgreesWhenReadable(st: State, user: Option<string>, dataUrl: Option<string>, added: bool)
    ensures Submit(st, user, dataUrl, added) == SubmitIntended(st, user, dataUrl, added)
            <==> !(MaySend(st, user) && st.imageFile.Some? && dataUrl.None?)
  {
  }

  /** As written, a held image that cannot be read is reported as a failure,
      yet the post goes out with `"imageUrl": null` and, once added, the
      composer drops the image: the post is published without it. */
  lemma ReadFailurePostsWithoutImage(st: State, user: Option<string>)
    requires MaySend(st, user) && st.imageFile.Some?
    ensures
      var o := Submit(st, user, None, true);
      && o.alerts == [ReadFailed]
      && o.sent.Some? && Json.Lookup(PayloadDoc(o.sent.value), "imageUrl") == Json.Null
      && o.state.imageFile.None?
  {
  }

  // ---------------------------------------------------------------------
  // The composer as a state machine

  datatype Event =
    | PickFileEvent(file: Option<PickedFile>)
    | PasteEvent(items: seq<ClipItem>)
    | RemoveImageEvent
    | TypeEvent(text: string)
    | SubmitEvent(user: Option<string>, dataUrl: Option<string>, added: bool)

  /** One user action. Typing replaces the text and nothing else; picking,
      pasting and removing an image never touch the text (text the browser
      pastes arrives as typing); no action breaks the composer's invariant. */
  function Step(st: State, e: Event): (r: State)
    ensures e.TypeEvent? ==> r.content == e.text && r.imageFile == st.imageFile && r.imagePreview == st.imagePreview
    ensures !e.TypeEvent? && !e.SubmitEvent? ==> r.content == st.content
    ensures Consistent(st) ==> Consistent(r)
  {
    match e
    case PickFileEvent(file) => PickFile(st, file)
    case PasteEvent(items) => Paste(st, items).state
    case RemoveImageEvent => RemoveImage(st)
    case TypeEvent(text) => st.(content := text)
    case SubmitEvent(user, dataUrl, added) => Submit(st, user, dataUrl, added).state
  }

  function Run(st: State, events: seq<Event>): State
    decreases |events|
  {
    if |events| == 0 then st else Run(Step(st, events[0]), events[1..])
  }

  /** Whatever the user does, `imageFile` and `imagePreview` are both absent
      or both present, and the preview shows the held file. */
  lemma {:induction false} RunConsistent(st: State, events: seq<Event>)
    requires Consistent(st)
    ensures Consistent(Run(st, events))
    decreases |events|
  {
    if |events| > 0 {
      RunConsistent(Step(st, events[0]), events[1..]);
    }
  }
}

=== FILE: interplay.dfy ===
/**
 * How the client and the server fit together: a post submitted from the
 * composer is stored by the server, listed on its author's profile and shows
 * its ObjectId's creation time; an edit reaches the stored document. It also
 * shows what the client's post list holds after the server's actual
 * replies: the reply objects carry neither the post's content nor its id.
 */
module Interplay {
  import opened Wrappers
  import opened Json
  import ObjectIds
  import Composer
  import PostCache
  import Backend
  import PostCard
  import Profile
  import QueryString

  /** What the client's `fetch` sees for a reply whose body is an object. */
  function AsResponse(r: Backend.Reply): (resp: PostCache.Response)
    requires r.body.Message?
    ensures resp.Response? && resp.status == r.status && resp.body == Some(Serialize(r.body.fields))
  {
    PostCache.Response(r.status, Some(Serialize(r.body.fields)))
  }

  /** A stored document built from a composer payload comes back to the
      client as that payload with its id as text. */
  lemma SerializeStored(p: Composer.NewPost, o: ObjectIds.Oid)
    ensures Serialize(Composer.PayloadDoc(p)["_id" := Oid(o)]) == Composer.PayloadDoc(p)["_id" := Str(ObjectIds.ToHex(o))]
  {
  }

  /** The profile page of `email` once the server has answered its query
      on `store`. */
  function ProfilePage(store: Backend.Store, email: string, query: Option<string>): Profile.View
  {
    Profile.FetchUserPosts(Profile.InitialView, Some(email), Some(Backend.ListPosts(store, query, false).reply))
  }

  /** A stored post of `email` is on the profile page whose query the
      server reads as `email`. */
  lemma ListedOnProfile(store: Backend.Store, email: string, stored: Doc)
    requires email != "" && stored in store.Values && Lookup(stored, "userEmail") == Str(email)
    ensures
      var page := ProfilePage(store, email, Some(email));
      page.userPosts.Listing? && Serialize(stored) in page.userPosts.docs
  {
    var listed := Backend.ListPosts(store, Some(email), false);
    assert stored in listed.reply.body.docs;
  }

  /** A post submitted by a signed-in user and accepted by the server shows
      the creation time carried by the id the server gave it, and is listed
      on that user's profile whenever the email reaches the server intact,
      which it always does with the intended, encoded query. */
  lemma {:induction false} SubmittedPostReachesProfile(
    st: Backend.Store, c: Composer.State, email: string, dataUrl: Option<string>, newId: ObjectIds.Oid)
    requires Backend.WellKeyed(st) && Oid(newId) !in st
    requires email != ""
    requires Composer.Submit(c, Some(email), dataUrl, true).sent.Some?
    ensures
      var body := Composer.PayloadDoc(Composer.Submit(c, Some(email), dataUrl, true).sent.value);
      var h := Backend.CreatePost(st, body, newId, false);
      && h.reply.status == Backend.StatusCreated
      && var shown := Serialize(h.store[Oid(newId)]);
      && PostCard.DisplayTime(shown) == PostCard.At(1000 * ObjectIds.Seconds(newId))
      && (Profile.UserQuery(email) == Some(email) ==>
            var page := ProfilePage(h.store, email, Profile.UserQuery(email));
            page.userPosts.Listing? && shown in page.userPosts.docs)
      && var page := ProfilePage(h.store, email, Profile.UserQueryIntended(email));
      && page.userPosts.Listing? && shown in page.userPosts.docs
  {
    var p := Composer.Submit(c, Some(email), dataUrl, true).sent.value;
    var body := Composer.PayloadDoc(p);
    var h := Backend.CreatePost(st, body, newId, false);
    var stored := h.store[Oid(newId)];
    assert stored == body["_id" := Oid(newId)] && stored in h.store.Values;
    assert Lookup(stored, "userEmail") == Str(email);
    var shown := Serialize(stored);
    assert PostCard.DisplayTime(shown) == PostCard.At(1000 * ObjectIds.Seconds(newId)) by {
      ShownTime(p, newId);
    }
    ListedOnProfile(h.store, email, stored);
  }

  /** A stored payload shows the creation time of the id it was stored under. */
  lemma ShownTime(p: Composer.NewPost, newId: ObjectIds.Oid)
    ensures PostCard.DisplayTime(Serialize(Composer.PayloadDoc(p)["_id" := Oid(newId)])) == PostCard.At(1000 * ObjectIds.Seconds(newId))
  {
    var shown := Serialize(Composer.PayloadDoc(p)["_id" := Oid(newId)]);
    SerializeStored(p, newId);
    assert IdOf(shown) == Some(ObjectIds.ToHex(newId));
    ObjectIds.ParseToHex(newId);
    PostCard.DisplayTimeOfObjectId(shown);
  }

  /** The post a signed-in user submits shows its author controls to that
      user and to nobody else: not to another account, not when signed out. */
  lemma SubmitterIsAuthor(
    st: Backend.Store, c: Composer.State, email: string, dataUrl: Option<string>, newId: ObjectIds.Oid, other: Option<string>)
    requires Backend.WellKeyed(st) && Oid(newId) !in st
    requires Composer.Submit(c, Some(email), dataUrl, true).sent.Some?
    ensures
      var body := Composer.PayloadDoc(Composer.Submit(c, Some(email), dataUrl, true).sent.value);
      var shown := Serialize(Backend.CreatePost(st, body, newId, false).store[Oid(newId)]);
      && PostCard.IsAuthor(Some(email), shown)
      && (PostCard.IsAuthor(other, shown) <==> other == Some(email))
  {
    var p := Composer.Submit(c, Some(email), dataUrl, true).sent.value;
    var body := Composer.PayloadDoc(p);
    var stored := Backend.CreatePost(st, body, newId, false).store[Oid(newId)];
    assert stored == body["_id" := Oid(newId)];
    assert Lookup(Serialize(stored), "userEmail") == Str(email);
  }

  /** As written, a signed-in user whose email holds a '+' (a plus address
      such as "a+b@x.com") sees none of their own posts on their profile:
      the server reads the '+' as a space and lists the posts of another
      email. */
  lemma PlusAddressMissesOwnPosts(store: Backend.Store, email: string, i: nat)
    requires forall j | 0 <= j < |email| :: email[j] != '#' && email[j] != '&' && email[j] != '%' && email[j] != ']'
    requires i < |email| && email[i] == '+'
    ensures
      var page := ProfilePage(store, email, Profile.UserQuery(email));
      && page.userPosts.Listing?
      && forall d | d in page.userPosts.docs :: Lookup(d, "userEmail") != Str(email)
  {
    QueryString.PlusReadAsSpace(email, i);
    var q := Profile.UserQuery(email);
    assert q.Some? && q.value != email && q.value != "";
    var listed := Backend.ListPosts(store, q, false);
    assert forall d | d in listed.reply.body.docs :: Lookup(d, "userEmail") == Str(q.value);
  }

  /** An edit saved from a card reaches the stored document: the server sets
      its content to the edited text and keeps every other field. */
  lemma EditReachesStore(st: Backend.Store, postId: string, content: string)
    requires Backend.WellKeyed(st)
    requires Backend.KeyOf(postId).Some? && Backend.KeyOf(postId).value in st
    ensures
      var k := Backend.KeyOf(postId).value;
      var h := Backend.UpdatePost(st, postId, PostCache.UpdateRequest(postId, content).body.value, false);
      && h.reply.status == Backend.StatusOk
      && Lookup(h.store[k], "content") == Str(content)
      && forall f | f != "content" :: Lookup(h.store[k], f) == Lookup(st[k], f)
  {
  }

  // ---------------------------------------------------------------------
  // Finding: the cached content after an update

  /** As written, `updatePost` copies the reply's `content` into the list.
      The server's reply to a successful PUT is `{ message }`, so every
      cached post with that id ends up with content `undefined` instead of
      the text just saved. */
  lemma UpdateCachesUndefined(posts: seq<Doc>, st: Backend.Store, postId: string, content: string, i: nat)
    requires Backend.WellKeyed(st)
    requires Backend.KeyOf(postId).Some? && Backend.KeyOf(postId).value in st
    requires i < |posts| && IdOf(posts[i]) == Some(postId)
    ensures
      var h := Backend.UpdatePost(st, postId, PostCache.UpdateRequest(postId, content).body.value, false);
      var o := PostCache.UpdatePost(posts, postId, content, AsResponse(h.reply));
      && o.result.Success?
      && Lookup(o.posts[i], "content") == Undefined
      && Lookup(o.posts[i], "content") != Str(content)
  {
    var h := Backend.UpdatePost(st, postId, PostCache.UpdateRequest(postId, content).body.value, false);
    assert h.reply.body.fields == map["message" := Str("Post updated successfully")];
    assert Lookup(Serialize(h.reply.body.fields), "content") == Undefined;
  }

  /** With the intended update, the cached post shows the same content as
      the stored document after the same request. */
  lemma IntendedUpdateMatchesStore(posts: seq<Doc>, st: Backend.Store, postId: string, content: string, i: nat)
    requires Backend.WellKeyed(st)
    requires Backend.KeyOf(postId).Some? && Backend.KeyOf(postId).value in st
    requires i < |posts| && IdOf(posts[i]) == Some(postId)
    ensures
      var k := Backend.KeyOf(postId).value;
      var h := Backend.UpdatePost(st, postId, PostCache.UpdateRequest(postId, content).body.value, false);
      var o := PostCache.UpdatePostIntended(posts, postId, content, AsResponse(h.reply));
      && o.result.Success?
      && Lookup(o.posts[i], "content") == Lookup(h.store[k], "content") == Str(content)
  {
    EditReachesStore(st, postId, content);
  }

  // ---------------------------------------------------------------------
  // Finding: the cached entry after an add

  /** As written, `addPost` puts the reply `{ message, postId }` at the head
      of the list. That entry has no content and no `_id`, so deleting the
      new post by its id does not remove it from the list. */
  lemma AddCachesReply(posts: seq<Doc>, st: Backend.Store, p: Composer.NewPost, newId: ObjectIds.Oid)
    requires Backend.WellKeyed(st) && Oid(newId) !in st
    ensures
      var h := Backend.CreatePost(st, Composer.PayloadDoc(p), newId, false);
      var o := PostCache.AddPost(posts, AsResponse(h.reply));
      && o.result.Success?
      && Lookup(o.posts[0], "content") == Undefined
      && IdOf(o.posts[0]).None?
      && var gone := Backend.DeletePost(h.store, ObjectIds.ToHex(newId), false);
      && gone.reply.status == Backend.StatusOk
      && o.posts[0] in PostCache.DeletePost(o.posts, ObjectIds.ToHex(newId), AsResponse(gone.reply)).posts
  {
    var h := Backend.CreatePost(st, Composer.PayloadDoc(p), newId, false);
    var reply := Serialize(h.reply.body.fields);
    assert h.reply.body.fields == map["message" := Str("Post added successfully"), "postId" := Oid(newId)];
    assert "content" !in reply && "_id" !in reply;
    ObjectIds.ParseToHex(newId);
    var o := PostCache.AddPost(posts, AsResponse(h.reply));
    assert o.posts[0] in o.posts;
  }

  /** With the intended add, the head of the list is exactly the document
      the server now lists for the new post, and deleting it by its id
      removes it from the list. */
  lemma IntendedAddMatchesStore(posts: seq<Doc>, st: Backend.Store, p: Composer.NewPost, newId: ObjectIds.Oid)
    requires Backend.WellKeyed(st) && Oid(newId) !in st
    requires forall q | q in posts :: IdOf(q) != Some(ObjectIds.ToHex(newId))
    ensures
      var body := Composer.PayloadDoc(p);
      var h := Backend.CreatePost(st, body, newId, false);
      var o := PostCache.AddPostIntended(posts, body, AsResponse(h.reply));
      && o.result.Success?
      && o.posts[0] == Serialize(h.store[Oid(newId)])
      && var gone := Backend.DeletePost(h.store, ObjectIds.ToHex(newId), false);
      && gone.reply.status == Backend.StatusOk
      && PostCache.DeletePost(o.posts, ObjectIds.ToHex(newId), AsResponse(gone.reply)).posts == posts
  {
    var body := Composer.PayloadDoc(p);
    var h := Backend.CreatePost(st, body, newId, false);
    assert h.reply.body.fields == map["message" := Str("Post added successfully"), "postId" := Oid(newId)];
    var reply := Serialize(h.reply.body.fields);
    assert Lookup(reply, "postId") == Str(ObjectIds.ToHex(newId));
    var o := PostCache.AddPostIntended(posts, body, AsResponse(h.reply));
    SerializeStored(p, newId);
    assert o.posts[0] == body["_id" := Str(ObjectIds.ToHex(newId))];
    ObjectIds.ParseToHex(newId);
    var gone := Backend.DeletePost(h.store, ObjectIds.ToHex(newId), false);
    PostCache.DeleteAbsentId(posts, ObjectIds.ToHex(newId));
    assert o.posts == [o.posts[0]] + posts;
  }
}

=== FILE: json.dfy ===
/**
 * The JavaScript values that travel between the client and the server:
 * a document is a JavaScript object, modelled as a finite map from field
 * names to values.
 */
module Json {
  import opened Wrappers
  import ObjectIds

  /** A field value. `Undefined` is what reading an absent field yields in
      JavaScript; `Oid` is a BSON ObjectId, which only the server holds. */
  datatype Value =
    | Undefined
    | Null
    | Bool(b: bool)
    | Num(n: real)
    | Str(s: string)
    | Oid(id: ObjectIds.Oid)

  type Doc = map<string, Value>

  /** `obj[key]`: the value of a field, `Undefined` when it is absent. */
  function Lookup(d: Doc, key: string): (v: Value)
    ensures key !in d ==> v == Undefined
    ensures key in d ==> v == d[key]
  {
    if key in d then d[key] else Undefined
  }

  /** JavaScript truthiness (NaN is not modelled: numbers are rationals). */
  predicate Truthy(v: Value)
  {
    match v
    case Undefined => false
    case Null => false
    case Bool(b) => b
    case Num(n) => n != 0.0
    case Str(s) => s != ""
    case Oid(_) => true
  }

  /** `post._id` compared with `===` against a string: only a string id can match. */
  function IdOf(d: Doc): Option<string>
  {
    match Lookup(d, "_id")
    case Str(s) => Some(s)
    case _ => None
  }

  /** A value as `JSON.stringify` writes it: an ObjectId becomes its
      hexadecimal text. */
  function SerializeValue(v: Value): Value
  {
    if v.Oid? then Str(ObjectIds.ToHex(v.id)) else v
  }

  /** A document as `res.send` writes it and the client parses it back:
      fields holding `undefined` are dropped, ObjectIds become text. */
  function Serialize(d: Doc): Doc
  {
    map k | k in d && d[k] != Undefined :: SerializeValue(d[k])
  }

  /** What the client receives of a document: exactly its fields that are
      not `undefined`; every ObjectId as text that parses back to the same
      ObjectId; every other value as it was. */
  lemma SerializeMeaning(d: Doc)
    ensures forall k :: k in Serialize(d) <==> k in d && d[k] != Undefined
    ensures forall k | k in Serialize(d) :: Serialize(d)[k] != Undefined && !Serialize(d)[k].Oid?
    ensures forall k | k in Serialize(d) && !d[k].Oid? :: Serialize(d)[k] == d[k]
    ensures forall k | k in Serialize(d) && d[k].Oid? ::
              Serialize(d)[k].Str? && ObjectIds.Parse(Serialize(d)[k].s) == Some(d[k].id)
  {
    ObjectIds.ParseToHexAll();
  }
}

=== FILE: object_id.dfy ===
/**
 * BSON ObjectIds as the server parses them from a route parameter and as they
 * reach the client: 24 hexadecimal digits, the first 8 of which are a
 * big-endian count of seconds since the Unix epoch (MongoDB ObjectId
 * specification).
 */
module ObjectIds {
  import opened Wrappers

  type Nibble = n: nat | n < 16

  /** The 12 bytes of an ObjectId, as 24 nibbles, most significant first. */
  type Oid = s: seq<Nibble> | |s| == 24 witness seq(24, _ => 0)

  /** Number of hexadecimal digits of the timestamp prefix. */
  const TimestampDigits: nat := 8

  function HexValue(c: char): (r: Option<Nibble>)
    ensures r.Some? <==> ('0' <= c <= '9' || 'a' <= c <= 'f' || 'A' <= c <= 'F')
  {
    if '0' <= c <= '9' then Some(c as int - '0' as int)
    else if 'a' <= c <= 'f' then Some(c as int - 'a' as int + 10)
    else if 'A' <= c <= 'F' then Some(c as int - 'A' as int + 10)
    else None
  }

  predicate IsHexDigit(c: char)
  {
    HexValue(c).Some?
  }

  /** The lower-case digit `toHexString` writes for a nibble. */
  function HexDigit(n: Nibble): (c: char)
    ensures HexValue(c) == Some(n)
    ensures !('A' <= c <= 'F')
  {
    if n < 10 then ('0' as int + n) as char else ('a' as int + n - 10) as char
  }

  /** The digit values of a string made only of hexadecimal digits. */
  function Nibbles(s: string): (r: Option<seq<Nibble>>)
    ensures r.Some? <==> forall i | 0 <= i < |s| :: IsHexDigit(s[i])
    ensures r.Some? ==> |r.value| == |s|
    ensures r.Some? ==> forall i | 0 <= i < |s| :: HexValue(s[i]) == Some(r.value[i])
  {
    if |s| == 0 then Some([])
    else
      match (HexValue(s[0]), Nibbles(s[1..]))
      case (Some(n), Some(rest)) => Some([n] + rest)
      case _ => None
  }

  /** `new ObjectId(id)` for a string `id`: it accepts exactly 24 hexadecimal
      digits (either case) and throws otherwise. */
  function Parse(s: string): (r: Option<Oid>)
    ensures r.Some? <==> |s| == 24 && forall i | 0 <= i < |s| :: IsHexDigit(s[i])
    ensures r.Some? ==> forall i | 0 <= i < 24 :: HexValue(s[i]) == Some(r.value[i])
  {
    if |s| != 24 then None
    else
      match Nibbles(s)
      case Some(ns) => Some(ns)
      case None => None
  }

  /** `toHexString`, which is also how an ObjectId is written into JSON. */
  function ToHex(ns: seq<Nibble>): (s: string)
    ensures |s| == |ns|
    ensures forall i | 0 <= i < |s| :: HexValue(s[i]) == Some(ns[i])
  {
    seq(|ns|, i requires 0 <= i < |ns| => HexDigit(ns[i]))
  }

  /** Parsing the JSON form of an ObjectId gives back the same ObjectId. */
  lemma ParseToHex(o: Oid)
    ensures Parse(ToHex(o)) == Some(o)
  {
    var s := ToHex(o);
    assert Parse(s).Some?;
    var p := Parse(s).value;
    forall i | 0 <= i < 24
      ensures p[i] == o[i]
    {
      assert HexValue(s[i]) == Some(p[i]) && HexValue(s[i]) == Some(o[i]);
    }
    assert p == o;
  }

  /** `ParseToHex` for every ObjectId at once. */
  lemma ParseToHexAll()
    ensures forall o: Oid :: Parse(ToHex(o)) == Some(o)
  {
    forall o: Oid
      ensures Parse(ToHex(o)) == Some(o)
    {
      ParseToHex(o);
    }
  }

  function Pow16(n: nat): nat
  {
    if n == 0 then 1 else 16 * Pow16(n - 1)
  }

  /** The number that a sequence of hexadecimal digits denotes, most
      significant digit first. */
  function BigEndian(ns: seq<Nibble>): (v: nat)
    ensures v < Pow16(|ns|)
  {
    if |ns| == 0 then 0 else BigEndian(ns[..|ns| - 1]) * 16 + ns[|ns| - 1]
  }

  /** The `n`-digit big-endian encoding of `v`: the inverse of `BigEndian`. */
  function Encode(v: nat, n: nat): (ns: seq<Nibble>)
    requires v < Pow16(n)
    ensures |ns| == n
  {
    if n == 0 then [] else Encode(v / 16, n - 1) + [v % 16]
  }

  lemma {:induction false} BigEndianEncode(v: nat, n: nat)
    requires v < Pow16(n)
    ensures BigEndian(Encode(v, n)) == v
  {
    if n > 0 {
      var ns := Encode(v, n);
      assert ns[..n - 1] == Encode(v / 16, n - 1);
      BigEndianEncode(v / 16, n - 1);
    }
  }

  lemma {:induction false} EncodeBigEndian(ns: seq<Nibble>)
    ensures Encode(BigEndian(ns), |ns|) == ns
  {
    if |ns| > 0 {
      var init := ns[..|ns| - 1];
      var v := BigEndian(ns);
      assert v / 16 == BigEndian(init);
      assert v % 16 == ns[|ns| - 1];
      EncodeBigEndian(init);
      assert ns == init + [ns[|ns| - 1]];
    }
  }

  /** The creation time an ObjectId carries, in seconds since the epoch: the
      first 4 bytes read big-endian. It fits an unsigned 32-bit integer. */
  function Seconds(o: Oid): (t: nat)
    ensures t < 0x1_0000_0000
    ensures Encode(t, TimestampDigits) == o[..TimestampDigits]
  {
    EncodeBigEndian(o[..TimestampDigits]);
    assert Pow16(TimestampDigits) == 0x1_0000_0000;
    BigEndian(o[..TimestampDigits])
  }
}

=== FILE: parse_int.dfy ===
/**
 * JavaScript's `parseInt(s, 16)`: leading white space and one sign are
 * skipped, then a `0x`/`0X` prefix, then the longest run of hexadecimal
 * digits is read (section 19.2.5 of ECMA-262).
 */
module ParseInt {
  import opened Wrappers
  import ObjectIds

  /** JavaScript's white space and line terminators, which `parseInt` skips. */
  predicate IsSpace(c: char)
  {
    var n := c as int;
    || 0x09 <= n <= 0x0D || n == 0x20 || n == 0xA0 || n == 0x1680 || 0x2000 <= n <= 0x200A
    || n == 0x2028 || n == 0x2029 || n == 0x202F || n == 0x205F || n == 0x3000 || n == 0xFEFF
  }

  /** The text after its leading white space. */
  function TrimStart(s: string): string
  {
    if |s| > 0 && IsSpace(s[0]) then TrimStart(s[1..]) else s
  }

  /** The longest prefix made of hexadecimal digits. */
  function HexRun(s: string): (r: string)
    ensures forall i | 0 <= i < |r| :: ObjectIds.IsHexDigit(r[i])
  {
    if |s| > 0 && ObjectIds.IsHexDigit(s[0]) then [s[0]] + HexRun(s[1..]) else []
  }

  /** `parseInt(s, 16)`; None is NaN. Leading white space and one sign are
      skipped, then a `0x`/`0X` prefix, then the longest run of hex digits is
      read; no digit at all gives NaN. */
  function Hex(s: string): (r: Option<int>)
  {
    var t := TrimStart(s);
    var digits := HexRun(AfterPrefix(AfterSign(t)));
    if |digits| == 0 then None
    else
      var n: int := ObjectIds.BigEndian(ObjectIds.Nibbles(digits).value);
      Some(if |t| > 0 && t[0] == '-' then -n else n)
  }

  /** The text after one leading sign, if any. */
  function AfterSign(t: string): string
  {
    if |t| > 0 && (t[0] == '-' || t[0] == '+') then t[1..] else t
  }

  /** The text after a leading `0x` or `0X`, if any. */
  function AfterPrefix(u: string): string
  {
    if |u| >= 2 && u[0] == '0' && (u[1] == 'x' || u[1] == 'X') then u[2..] else u
  }

  /** The hexadecimal text of a non-empty digit sequence, as `toString(16)`
      writes it (lower case, no prefix), reads as the sequence's value. */
  lemma HexTextUnsigned(ns: seq<ObjectIds.Nibble>)
    requires |ns| > 0
    ensures Hex(ObjectIds.ToHex(ns)) == Some(ObjectIds.BigEndian(ns))
  {
    var t := ObjectIds.ToHex(ns);
    HexTextNibbles(ns);
    assert t + [] == t;
    HexRunAll(t);
    ParseUnsigned(t, []);
  }

  /** ... and after a '-', as its value negated. */
  lemma HexTextNegative(ns: seq<ObjectIds.Nibble>)
    requires |ns| > 0
    ensures Hex("-" + ObjectIds.ToHex(ns)).Some? && Hex("-" + ObjectIds.ToHex(ns)).value == -(ObjectIds.BigEndian(ns) as int)
  {
    var m := "-" + ObjectIds.ToHex(ns);
    assert m[1..] == ObjectIds.ToHex(ns);
    SignedHexText(ns, m);
  }

  lemma SignedHexText(ns: seq<ObjectIds.Nibble>, m: string)
    requires |ns| > 0 && |m| > 0 && m[0] == '-' && m[1..] == ObjectIds.ToHex(ns)
    ensures Hex(m).Some? && Hex(m).value == -(ObjectIds.BigEndian(ns) as int)
  {
    var t := ObjectIds.ToHex(ns);
    assert forall i | 0 <= i < |t| :: ObjectIds.IsHexDigit(t[i]);
    assert !(|t| >= 2 && t[0] == '0' && (t[1] == 'x' || t[1] == 'X')) by { HexTextNibbles(ns); }
    assert ObjectIds.Nibbles(t) == Some(ns) by { HexTextNibbles(ns); }
    ParseNegative(m, t);
  }

  /** Digits followed by a character that is not a hexadecimal digit: only
      the digits are read, except that a lone "0" followed by 'x' or 'X' is
      an empty `0x` prefix and gives NaN. */
  lemma HexTextStops(ns: seq<ObjectIds.Nibble>, c: char)
    requires |ns| > 0 && !ObjectIds.IsHexDigit(c)
    ensures |ns| > 1 || ns[0] > 0 || (c != 'x' && c != 'X') ==>
              Hex(ObjectIds.ToHex(ns) + [c]) == Some(ObjectIds.BigEndian(ns))
    ensures |ns| == 1 && ns[0] == 0 && (c == 'x' || c == 'X') ==> Hex(ObjectIds.ToHex(ns) + [c]) == None
  {
    var t := ObjectIds.ToHex(ns);
    var u := t + [c];
    HexTextNibbles(ns);
    HexRunStops(t, c);
    if |ns| == 1 && ns[0] == 0 && (c == 'x' || c == 'X') {
      assert |u| == 2 && u[0] == ObjectIds.HexDigit(0) && u[1] == c;
      ZeroPrefixOnly(u);
    } else {
      assert |ns| == 1 ==> t[0] == ObjectIds.HexDigit(ns[0]);
      ParseUnsigned(t, [c]);
    }
  }

  /** "0x" and "0X" alone: the prefix leaves no digit, so NaN. */
  lemma ZeroPrefixOnly(u: string)
    requires |u| == 2 && u[0] == '0' && (u[1] == 'x' || u[1] == 'X')
    ensures Hex(u) == None
  {
    assert TrimStart(u) == u;
    assert AfterSign(u) == u;
    assert AfterPrefix(u) == [];
  }

  /** A '-' before lower-case digits without a `0x` prefix negates their value. */
  lemma ParseNegative(m: string, t: string)
    requires |t| > 0 && forall i | 0 <= i < |t| :: ObjectIds.IsHexDigit(t[i])
    requires !(|t| >= 2 && t[0] == '0' && (t[1] == 'x' || t[1] == 'X'))
    requires |m| > 0 && m[0] == '-' && m[1..] == t
    ensures Hex(m).Some? && Hex(m).value == -(ObjectIds.BigEndian(ObjectIds.Nibbles(t).value) as int)
  {
    assert TrimStart(m) == m by { assert !IsSpace(m[0]); }
    assert AfterPrefix(AfterSign(m)) == t by { assert AfterSign(m) == t; }
    assert HexRun(t) == t by { HexRunAll(t); }
    assert ObjectIds.Nibbles(t).Some?;
  }

  /** Lower-case digits without a sign or a `0x` prefix, followed by
      `rest`: `parseInt` reads the digits' value. */
  lemma ParseUnsigned(t: string, rest: string)
    requires |t| > 0 && forall i | 0 <= i < |t| :: ObjectIds.IsHexDigit(t[i])
    requires HexRun(t + rest) == t
    requires !(|t + rest| >= 2 && t[0] == '0' && ((t + rest)[1] == 'x' || (t + rest)[1] == 'X'))
    ensures Hex(t + rest) == Some(ObjectIds.BigEndian(ObjectIds.Nibbles(t).value))
  {
    var u := t + rest;
    assert u[0] == t[0];
    assert ObjectIds.IsHexDigit(u[0]);
    assert !IsSpace(u[0]) && u[0] != '-' && u[0] != '+';
    assert TrimStart(u) == u;
    assert ObjectIds.Nibbles(t).Some?;
  }

  /** The digits `toString(16)` writes read back as the same nibbles. */
  lemma HexTextNibbles(ns: seq<ObjectIds.Nibble>)
    ensures ObjectIds.Nibbles(ObjectIds.ToHex(ns)) == Some(ns)
    ensures forall i | 0 <= i < |ns| :: ObjectIds.ToHex(ns)[i] != 'x' && ObjectIds.ToHex(ns)[i] != 'X'
  {
    var t := ObjectIds.ToHex(ns);
    var r := ObjectIds.Nibbles(t);
    assert r.Some?;
    forall i | 0 <= i < |ns|
      ensures r.value[i] == ns[i]
    {
      assert ObjectIds.HexValue(t[i]) == Some(r.value[i]);
    }
    assert r.value == ns;
  }

  lemma {:induction false} HexRunStops(s: string, c: char)
    requires forall i | 0 <= i < |s| :: ObjectIds.IsHexDigit(s[i])
    requires !ObjectIds.IsHexDigit(c)
    ensures HexRun(s + [c]) == s
  {
    if |s| == 0 {
    } else {
      assert (s + [c])[1..] == s[1..] + [c];
      HexRunStops(s[1..], c);
    }
  }

  lemma {:induction false} HexRunAll(s: string)
    requires forall i | 0 <= i < |s| :: ObjectIds.IsHexDigit(s[i])
    ensures HexRun(s) == s
  {
    if |s| > 0 {
      HexRunAll(s[1..]);
    }
  }
}

=== FILE: post_cache.dfy ===
/**
 * The client's post list and the three operations that change it after a
 * request: adding prepends the parsed reply, updating rewrites the content
 * of the posts with the given id, deleting filters them out. A request that
 * fails leaves the list as it was and surfaces an error.
 */
module PostCache {
  import opened Wrappers
  import opened Json

  /** What `fetch` yields: a network failure, or a status with a body that
      `response.json()` either parses (Some) or rejects (None). */
  datatype Response = NetworkError | Response(status: int, body: Option<Doc>)

  /** `response.ok`: a status in 200..299. */
  predicate Ok(status: int)
  {
    200 <= status <= 299
  }

  datatype CacheError = Network | HttpStatus(status: int) | UnreadableBody

  /** The list after an operation, and what the operation returned or threw. */
  datatype Outcome = Outcome(posts: seq<Doc>, result: Result<Doc, CacheError>)

  datatype Verb = PostVerb | PutVerb | DeleteVerb

  /** A request to the backend: method, the `:id` route parameter, JSON body. */
  datatype Request = Request(verb: Verb, id: Option<string>, body: Option<Doc>)

  function AddRequest(newPost: Doc): Request
  {
    Request(PostVerb, None, Some(newPost))
  }

  /** `updatePost` sends the new content and no other field. */
  function UpdateRequest(postId: string, content: string): (r: Request)
    ensures r.verb == PutVerb && r.id == Some(postId) && r.body.Some?
    ensures r.body.value.Keys == {"content"} && r.body.value["content"] == Str(content)
  {
    Request(PutVerb, Some(postId), Some(map["content" := Str(content)]))
  }

  function DeleteRequest(postId: string): Request
  {
    Request(DeleteVerb, Some(postId), None)
  }

  /** The error a response raises before its body is looked at. */
  function StatusError(resp: Response): (e: Option<CacheError>)
    ensures e.None? <==> resp.Response? && Ok(resp.status)
  {
    match resp
    case NetworkError => Some(Network)
    case Response(status, _) => if Ok(status) then None else Some(HttpStatus(status))
  }

  /** The parsed body of a successful response. */
  function ParsedBody(resp: Response): (r: Result<Doc, CacheError>)
    ensures r.Success? <==> resp.Response? && Ok(resp.status) && resp.body.Some?
    ensures r.Success? ==> r.value == resp.body.value
  {
    match StatusError(resp)
    case Some(e) => Failure(e)
    case None => if resp.body.Some? then Success(resp.body.value) else Failure(UnreadableBody)
  }

  // ---------------------------------------------------------------------
  // The list transformations

  /** One post after `{ ...post, content: v }` when its id matches. */
  function Replaced(p: Doc, postId: string, v: Value): Doc
  {
    if IdOf(p) == Some(postId) then p["content" := v] else p
  }

  /** `prevPosts.map(...)`: the same length, each post replaced in place. */
  function SetContent(posts: seq<Doc>, postId: string, v: Value): (r: seq<Doc>)
    ensures |r| == |posts|
    ensures forall i | 0 <= i < |r| :: r[i] == Replaced(posts[i], postId, v)
  {
    if |posts| == 0 then []
    else [Replaced(posts[0], postId, v)] + SetContent(posts[1..], postId, v)
  }

  /** `a` is `b` with some elements left out, the rest in their order. */
  ghost predicate IsSubsequence(a: seq<Doc>, b: seq<Doc>)
    decreases |b|
  {
    || |a| == 0
    || (|b| > 0 && ((a[0] == b[0] && IsSubsequence(a[1..], b[1..])) || IsSubsequence(a, b[1..])))
  }

  /** `prevPosts.filter(post => post._id !== postId)`: exactly the posts whose
      id differs, each as often as before, in their original order. */
  function Without(posts: seq<Doc>, postId: string): (r: seq<Doc>)
    ensures forall p | p in r :: IdOf(p) != Some(postId)
    ensures forall p :: multiset(r)[p] == if IdOf(p) == Some(postId) then 0 else multiset(posts)[p]
    ensures IsSubsequence(r, posts)
  {
    if |posts| == 0 then []
    else
      var rest := Without(posts[1..], postId);
      assert posts == [posts[0]] + posts[1..];
      if IdOf(posts[0]) == Some(postId) then rest
      else
        var r := [posts[0]] + rest;
        assert r[1..] == rest;
        r
  }

  // ---------------------------------------------------------------------
  // The operations

  /** `addPost`: on success the parsed reply goes in front of the unchanged
      list and is returned; on any failure the list is untouched. */
  function AddPost(posts: seq<Doc>, resp: Response): (o: Outcome)
    ensures o.result == ParsedBody(resp)
    ensures o.result.Failure? ==> o.posts == posts
    ensures o.result.Success? ==> |o.posts| == |posts| + 1 && o.posts[0] == resp.body.value && o.posts[1..] == posts
  {
    match ParsedBody(resp)
    case Success(added) => Outcome([added] + posts, Success(added))
    case Failure(e) => Outcome(posts, Failure(e))
  }

  /** `updatePost`: on success the posts with the given id take the reply's
      `content` field and nothing else changes; on failure the list is untouched. */
  function UpdatePost(posts: seq<Doc>, postId: string, content: string, resp: Response): (o: Outcome)
    ensures o.result == ParsedBody(resp)
    ensures o.result.Failure? ==> o.posts == posts
    ensures o.result.Success? ==> |o.posts| == |posts|
    ensures o.result.Success? ==> forall i | 0 <= i < |posts| ::
              if IdOf(posts[i]) == Some(postId)
              then o.posts[i] == posts[i]["content" := Lookup(resp.body.value, "content")]
              else o.posts[i] == posts[i]
  {
    match ParsedBody(resp)
    case Success(data) => Outcome(SetContent(posts, postId, Lookup(data, "content")), Success(data))
    case Failure(e) => Outcome(posts, Failure(e))
  }

  /** `deletePost`: the body is not read; on success the posts with the given
      id are gone (it returns nothing: the empty object stands for that); on
      failure the list is untouched. */
  function DeletePost(posts: seq<Doc>, postId: string, resp: Response): (o: Outcome)
    ensures o.result.Success? <==> resp.Response? && Ok(resp.status)
    ensures o.result.Failure? ==> o.posts == posts
    ensures o.result.Success? ==> forall p | p in o.posts :: IdOf(p) != Some(postId)
    ensures o.result.Success? ==> forall p | p in posts && IdOf(p) != Some(postId) :: p in o.posts
    ensures o.result.Success? ==> o.posts == Without(posts, postId)
  {
    match StatusError(resp)
    case Some(e) => Outcome(posts, Failure(e))
    case None => Outcome(Without(posts, postId), Success(map[]))
  }

  /** Only the content field of a post can change under an update. */
  lemma UpdateKeepsOtherFields(posts: seq<Doc>, postId: string, v: Value, i: nat, field: string)
    requires i < |posts| && field != "content"
    ensures Lookup(SetContent(posts, postId, v)[i], field) == Lookup(posts[i], field)
  {
  }

  /** Updating an id no post has leaves the list as it was. */
  lemma {:induction false} UpdateAbsentId(posts: seq<Doc>, postId: string, v: Value)
    requires forall p | p in posts :: IdOf(p) != Some(postId)
    ensures SetContent(posts, postId, v) == posts
  {
    var r := SetContent(posts, postId, v);
    assert forall i | 0 <= i < |posts| :: r[i] == posts[i] by {
      forall i | 0 <= i < |posts| ensures r[i] == posts[i] {
        assert posts[i] in posts;
      }
    }
  }

  /** Deleting an id no post has leaves the list as it was. */
  lemma {:induction false} DeleteAbsentId(posts: seq<Doc>, postId: string)
    requires forall p | p in posts :: IdOf(p) != Some(postId)
    ensures Without(posts, postId) == posts
  {
    if |posts| > 0 {
      assert posts[0] in posts;
      DeleteAbsentId(posts[1..], postId);
      assert posts == [posts[0]] + posts[1..];
    }
  }

  // ---------------------------------------------------------------------
  // The operations as evidently intended (see the findings)

  /** `updatePost` writing the content it sent: afterwards every post with
      the given id shows that content. */
  function UpdatePostIntended(posts: seq<Doc>, postId: string, content: string, resp: Response): (o: Outcome)
    ensures o.result.Success? <==> resp.Response? && Ok(resp.status) && resp.body.Some?
    ensures o.result.Failure? ==> o.posts == posts
    ensures o.result.Success? ==> |o.posts| == |posts| && forall i | 0 <= i < |posts| ::
              IdOf(o.posts[i]) == IdOf(posts[i])
              && (IdOf(posts[i]) == Some(postId) ==> Lookup(o.posts[i], "content") == Str(content))
              && (IdOf(posts[i]) != Some(postId) ==> o.posts[i] == posts[i])
  {
    match ParsedBody(resp)
    case Success(data) => Outcome(SetContent(posts, postId, Str(content)), Success(data))
    case Failure(e) => Outcome(posts, Failure(e))
  }

  /** The post the server stored for a create request: the request body with
      the id the reply reports. */
  function Created(newPost: Doc, reply: Doc): Doc
  {
    newPost["_id" := Lookup(reply, "postId")]
  }

  /** `addPost` caching the created post instead of the reply: the new head
      carries the sent fields and the id the server assigned. */
  function AddPostIntended(posts: seq<Doc>, newPost: Doc, resp: Response): (o: Outcome)
    ensures o.result.Success? <==> resp.Response? && Ok(resp.status) && resp.body.Some?
    ensures o.result.Failure? ==> o.posts == posts
    ensures o.result.Success? ==> |o.posts| == |posts| + 1 && o.posts[1..] == posts
    ensures o.result.Success? ==> forall f | f != "_id" :: Lookup(o.posts[0], f) == Lookup(newPost, f)
    ensures o.result.Success? ==> Lookup(o.posts[0], "_id") == Lookup(resp.body.value, "postId")
  {
    match ParsedBody(resp)
    case Success(reply) => Outcome([Created(newPost, reply)] + posts, Success(reply))
    case Failure(e) => Outcome(posts, Failure(e))
  }
}

=== FILE: post_card.dfy ===
/**
 * One rendered post: who may edit or delete it, the time it shows, and its
 * edit mode. The card's state is `isEditing` and the edited text.
 */
module PostCard {
  import opened Wrappers
  import opened Json
  import ObjectIds
  import ParseInt

  /** `isAuthor`: someone is signed in and their email is the post's author. */
  predicate IsAuthor(user: Option<string>, post: Doc)
  {
    user.Some? && Lookup(post, "userEmail") == Str(user.value)
  }

  datatype Control = EditButton | DeleteButton | SaveButton | CancelButton

  /** The buttons the card renders. */
  function Controls(user: Option<string>, post: Doc, editing: bool): (cs: set<Control>)
    ensures cs != {} <==> IsAuthor(user, post)
    ensures EditButton in cs || DeleteButton in cs <==> IsAuthor(user, post) && !editing
    ensures SaveButton in cs || CancelButton in cs <==> IsAuthor(user, post) && editing
  {
    if !IsAuthor(user, post) then {}
    else if editing then {SaveButton, CancelButton}
    else {EditButton, DeleteButton}
  }

  // ---------------------------------------------------------------------
  // The displayed time

  /** What the card shows as its time. */
  datatype Shown =
    | FromCreatedAt(createdAt: Value)  // `new Date(post.createdAt)`, not modelled further
    | At(ms: int)                      // milliseconds since the epoch
    | InvalidDate                      // `new Date(NaN)`
    | RenderError                      // `_id` is not a string: `substring` throws

  /** The time a card shows: `createdAt` when it is truthy, otherwise the
      first 8 characters of `_id` read as a hexadecimal number of seconds. */
  function DisplayTime(post: Doc): (r: Shown)
    ensures Truthy(Lookup(post, "createdAt")) ==> r == FromCreatedAt(Lookup(post, "createdAt"))
    ensures !Truthy(Lookup(post, "createdAt")) && IdOf(post).None? ==> r == RenderError
  {
    var createdAt := Lookup(post, "createdAt");
    if Truthy(createdAt) then FromCreatedAt(createdAt)
    else
      match IdOf(post)
      case None => RenderError
      case Some(id) =>
        var prefix := if |id| <= 8 then id else id[..8];
        match ParseInt.Hex(prefix)
        case None => InvalidDate
        case Some(seconds) => At(1000 * seconds)
  }

  /** Without `createdAt`, a post whose `_id` is the text of an ObjectId
      shows exactly that ObjectId's creation time in milliseconds, which lies
      between 0 and 1000 * (2^32 - 1). */
  lemma DisplayTimeOfObjectId(post: Doc)
    requires !Truthy(Lookup(post, "createdAt"))
    requires IdOf(post).Some? && ObjectIds.Parse(IdOf(post).value).Some?
    ensures DisplayTime(post) == At(1000 * ObjectIds.Seconds(ObjectIds.Parse(IdOf(post).value).value))
    ensures 0 <= DisplayTime(post).ms <= 1000 * (0x1_0000_0000 - 1)
  {
    IdTimestamp(IdOf(post).value);
  }

  /** For the text of an ObjectId, `parseInt` of its first 8 characters is
      the ObjectId's timestamp. */
  lemma IdTimestamp(id: string)
    requires ObjectIds.Parse(id).Some?
    ensures ParseInt.Hex(id[..8]) == Some(ObjectIds.Seconds(ObjectIds.Parse(id).value))
  {
    var o := ObjectIds.Parse(id).value;
    var p := id[..8];
    assert !ParseInt.IsSpace(p[0]) && p[0] != '-' && p[0] != '+';
    assert ParseInt.TrimStart(p) == p;
    assert !(p[0] == '0' && p[1] == 'x') && p[1] != 'X';
    ParseInt.HexRunAll(p);
    var ns := ObjectIds.Nibbles(p).value;
    assert ns == o[..8];
  }

  // ---------------------------------------------------------------------
  // Edit mode

  /** `isEditing` and `editedContent` (which starts as the post's content,
      whatever value that is). */
  datatype Card = Card(editing: bool, editedContent: Value)

  /** The card as it mounts. */
  function Mount(post: Doc): Card
  {
    Card(false, Lookup(post, "content"))
  }

  datatype Event =
    | ClickEdit
    | ClickCancel
    | TypeText(text: string)
    | ClickSave(updateSucceeds: bool)
    | ClickDelete(confirmed: bool)

  /** The context calls a click makes. */
  datatype Call = UpdateCall(postId: Value, content: Value) | DeleteCall(postId: Value)

  datatype CardOutcome = CardOutcome(card: Card, call: Option<Call>)

  /** One user action on a card. A button that is not rendered cannot be
      clicked, so such a click changes nothing; the text area exists exactly
      while editing. Save asks for an update with the edited text and leaves
      edit mode only when the update succeeds; Cancel leaves edit mode
      without a call and keeps the edited text; Delete asks for a deletion
      once confirmed and never changes the card. */
  function Step(user: Option<string>, post: Doc, c: Card, e: Event): (o: CardOutcome)
    ensures o.call.Some? ==> IsAuthor(user, post)
    ensures !IsAuthor(user, post) ==> o.call.None? && o.card.editing == c.editing
    ensures !IsAuthor(user, post) && !c.editing ==> o.card == c
    ensures e.ClickSave? && SaveButton in Controls(user, post, c.editing) ==>
              o.call == Some(UpdateCall(Lookup(post, "_id"), c.editedContent))
              && o.card == Card(!e.updateSucceeds, c.editedContent)
    ensures e.ClickCancel? ==> o.call.None? && o.card.editedContent == c.editedContent
    ensures e.ClickCancel? && IsAuthor(user, post) ==> !o.card.editing
    ensures e.ClickEdit? ==> o.call.None? && o.card.editedContent == c.editedContent
    ensures e.ClickDelete? ==> o.card == c
    ensures e.ClickDelete? ==> (o.call.Some? <==> DeleteButton in Controls(user, post, c.editing) && e.confirmed)
    ensures e.ClickDelete? && o.call.Some? ==> o.call == Some(DeleteCall(Lookup(post, "_id")))
    ensures e.TypeText? ==> o.call.None? && o.card.editing == c.editing
    ensures e.TypeText? ==> o.card.editedContent == if c.editing then Str(e.text) else c.editedContent
    ensures o.card.editedContent != c.editedContent ==> c.editing && e.TypeText?
    ensures e.ClickEdit? && EditButton in Controls(user, post, c.editing) ==> o.card.editing
    ensures e.ClickEdit? && EditButton !in Controls(user, post, c.editing) ==> o.card == c
    ensures e.ClickCancel? && CancelButton !in Controls(user, post, c.editing) ==> o.card == c
    ensures e.ClickSave? && SaveButton !in Controls(user, post, c.editing) ==> o == CardOutcome(c, None)
  {
    var shown := Controls(user, post, c.editing);
    match e
    case ClickEdit =>
      if EditButton in shown then CardOutcome(c.(editing := true), None) else CardOutcome(c, None)
    case ClickCancel =>
      if CancelButton in shown then CardOutcome(c.(editing := false), None) else CardOutcome(c, None)
    case TypeText(text) =>
      if c.editing then CardOutcome(c.(editedContent := Str(text)), None)
      else CardOutcome(c, None)
    case ClickSave(ok) =>
      if SaveButton in shown then
        CardOutcome(c.(editing := !ok), Some(UpdateCall(Lookup(post, "_id"), c.editedContent)))
      else CardOutcome(c, None)
    case ClickDelete(confirmed) =>
      if DeleteButton in shown && confirmed then CardOutcome(c, Some(DeleteCall(Lookup(post, "_id"))))
      else CardOutcome(c, None)
  }

  function Run(user: Option<string>, post: Doc, c: Card, events: seq<Event>): Card
    decreases |events|
  {
    if |events| == 0 then c else Run(user, post, Step(user, post, c, events[0]).card, events[1..])
  }

  /** Someone who is not the author can never bring a card out of view mode
      (as it is when mounted) or change its text, whatever they do. */
  lemma {:induction false} NonAuthorCardFixed(user: Option<string>, post: Doc, c: Card, events: seq<Event>)
    requires !IsAuthor(user, post) && !c.editing
    ensures Run(user, post, c, events) == c
    decreases |events|
  {
    if |events| > 0 {
      NonAuthorCardFixed(user, post, c, events[1..]);
    }
  }

  /** Over any sequence of actions, the edited text is the one the card
      started with or one typed during the sequence, and edit mode is
      entered only by the author. */
  lemma {:induction false} DraftComesFromTyping(user: Option<string>, post: Doc, c: Card, events: seq<Event>)
    ensures var r := Run(user, post, c, events);
            || r.editedContent == c.editedContent
            || exists i | 0 <= i < |events| :: events[i].TypeText? && r.editedContent == Str(events[i].text)
    ensures Run(user, post, c, events).editing ==> c.editing || IsAuthor(user, post)
    decreases |events|
  {
    if |events| > 0 {
      var c' := Step(user, post, c, events[0]).card;
      DraftComesFromTyping(user, post, c', events[1..]);
      var r := Run(user, post, c, events);
      assert r == Run(user, post, c', events[1..]);
      if r.editedContent != c.editedContent && r.editedContent == c'.editedContent {
        assert events[0].TypeText? && r.editedContent == Str(events[0].text);
      } else if r.editedContent != c'.editedContent {
        var i :| 0 <= i < |events[1..]| && events[1..][i].TypeText? && r.editedContent == Str(events[1..][i].text);
        assert events[i + 1] == events[1..][i];
      }
    }
  }

  /** The draft survives a cancel: an author's first Edit shows the post's
      content, but after typing and cancelling, Edit shows the cancelled
      text again, while the card itself still shows the post's content. */
  lemma CancelKeepsDraft(user: Option<string>, post: Doc, text: string)
    requires IsAuthor(user, post)
    ensures Run(user, post, Mount(post), [ClickEdit]) == Card(true, Lookup(post, "content"))
    ensures Run(user, post, Mount(post), [ClickEdit, TypeText(text), ClickCancel]) == Card(false, Str(text))
    ensures Run(user, post, Mount(post), [ClickEdit, TypeText(text), ClickCancel, ClickEdit]) == Card(true, Str(text))
  {
    var content := Lookup(post, "content");
    var c1 := Step(user, post, Mount(post), ClickEdit).card;
    assert c1 == Card(true, content);
    var c2 := Step(user, post, c1, TypeText(text)).card;
    assert c2 == Card(true, Str(text));
    var c3 := Step(user, post, c2, ClickCancel).card;
    assert c3 == Card(false, Str(text));
    var c4 := Step(user, post, c3, ClickEdit).card;
    assert c4 == Card(true, Str(text));
    var es := [ClickEdit, TypeText(text), ClickCancel, ClickEdit];
    assert Run(user, post, c4, []) == c4;
    assert Run(user, post, c3, es[3..]) == c4;
    assert Run(user, post, c2, es[2..]) == c4;
    assert Run(user, post, c1, es[1..]) == c4;
    var fs := [ClickEdit, TypeText(text), ClickCancel];
    assert Run(user, post, c3, fs[3..]) == c3;
    assert Run(user, post, c2, fs[2..]) == c3;
    assert Run(user, post, c1, fs[1..]) == c3;
    assert Run(user, post, c1, [ClickEdit][1..]) == c1;
  }
}

=== FILE: profile.dfy ===
/**
 * The profile page and the navigation bar's link to it: the page belongs to
 * the signed-in user when the route's `username` is the part of their email
 * before the '@', and it lists the posts fetched for the signed-in user's
 * email.
 */
module Profile {
  import opened Wrappers
  import opened Json
  import Backend
  import QueryString

  /** `email.split('@')[0]`: the text before the first '@', all of it when
      there is none. */
  function EmailPrefix(email: string): (r: string)
    ensures r <= email
    ensures '@' !in r
    ensures |r| < |email| ==> email[|r|] == '@'
  {
    if |email| == 0 || email[0] == '@' then "" else [email[0]] + EmailPrefix(email[1..])
  }

  /** `isOwner`: someone is signed in and `username` is their email prefix. */
  predicate IsOwner(user: Option<string>, username: string)
  {
    user.Some? && EmailPrefix(user.value) == username
  }

  /** Ownership looks only at the text before the '@': any two accounts
      whose emails share it, whatever their domains, both own the page of
      that name, and no account owns the page named by its whole email. */
  lemma {:induction false} OwnershipIgnoresDomain(local: string, domain: string)
    requires '@' !in local
    ensures IsOwner(Some(local + "@" + domain), local)
    ensures !IsOwner(Some(local + "@" + domain), local + "@" + domain)
  {
    assert local + "@" + domain == local + ("@" + domain);
    PrefixOfAddress(local, "@" + domain);
  }

  lemma {:induction false} PrefixOfAddress(local: string, rest: string)
    requires '@' !in local && |rest| > 0 && rest[0] == '@'
    ensures EmailPrefix(local + rest) == local
  {
    if |local| > 0 {
      assert (local + rest)[1..] == local[1..] + rest;
      PrefixOfAddress(local[1..], rest);
    } else {
      assert local + rest == rest;
    }
  }

  // ---------------------------------------------------------------------
  // The navigation bar's profile link

  const ProfileRoot: string := "/profile/"

  /** The target of the navigation bar's Profile link for a signed-in user. */
  function ProfileLink(email: string): string
  {
    ProfileRoot + EmailPrefix(email)
  }

  /** The path part of a link target: what precedes its query or fragment. */
  function Pathname(to: string): (r: string)
    ensures r <= to
    ensures '?' !in r && '#' !in r
  {
    if |to| == 0 || to[0] == '?' || to[0] == '#' then "" else [to[0]] + Pathname(to[1..])
  }

  /** `s` without the run of '/' it ends with. */
  function TrimSlashes(s: string): (r: string)
    ensures r <= s
    ensures |r| == 0 || r[|r| - 1] != '/'
    ensures forall i | |r| <= i < |s| :: s[i] == '/'
  {
    if |s| == 0 || s[|s| - 1] != '/' then s else TrimSlashes(s[..|s| - 1])
  }

  /** The `:username` the route `/profile/:username` takes from a path: one
      non-empty segment, followed by any number of '/', which the router's
      compiled pattern allows at the end. */
  function RouteUsername(path: string): (r: Option<string>)
    ensures r.Some? ==> r.value != "" && '/' !in r.value
    ensures r.Some? ==> ProfileRoot + r.value <= path
    ensures r.Some? ==> forall i | |ProfileRoot| + |r.value| <= i < |path| :: path[i] == '/'
  {
    if |path| > |ProfileRoot| && path[..|ProfileRoot|] == ProfileRoot then
      var rest := path[|ProfileRoot|..];
      var segment := TrimSlashes(rest);
      assert path == ProfileRoot + rest;
      if segment != "" && '/' !in segment then Some(segment) else None
    else None
  }

  /** Conversely, every such path is matched, with that segment. */
  lemma {:induction false} RouteAcceptsTrailingSlashes(v: string, slashes: string)
    requires v != "" && '/' !in v
    requires forall i | 0 <= i < |slashes| :: slashes[i] == '/'
    ensures RouteUsername(ProfileRoot + v + slashes) == Some(v)
  {
    var path := ProfileRoot + v + slashes;
    assert path[..|ProfileRoot|] == ProfileRoot;
    assert path[|ProfileRoot|..] == v + slashes;
    TrimmedSegment(v, slashes);
  }

  lemma {:induction false} TrimmedSegment(v: string, slashes: string)
    requires v != "" && v[|v| - 1] != '/'
    requires forall i | 0 <= i < |slashes| :: slashes[i] == '/'
    ensures TrimSlashes(v + slashes) == v
    decreases |slashes|
  {
    if |slashes| == 0 {
      assert v + slashes == v;
    } else {
      var s := v + slashes;
      assert s[|s| - 1] == '/';
      assert s[..|s| - 1] == v + slashes[..|slashes| - 1];
      TrimmedSegment(v, slashes[..|slashes| - 1]);
    }
  }

  /** An email prefix that survives being a path segment unchanged: not
      empty, not a dot segment ("." or "..", which the URL parser resolves
      away), and free of what that parser takes as a delimiter ('/', '\',
      '?', '#'), as an escape ('%') or drops (tab, line feed, carriage
      return). */
  predicate SafeSegment(s: string)
  {
    && s != "" && s != "." && s != ".."
    && forall i | 0 <= i < |s| ::
         && s[i] != '/' && s[i] != '\\' && s[i] != '?' && s[i] != '#' && s[i] != '%'
         && s[i] != '\t' && s[i] != '\n' && s[i] != '\r'
  }

  /** A signed-in user who follows the navigation bar's Profile link lands on
      a page that is theirs, whenever their email prefix can be a path
      segment. */
  lemma NavbarLinkIsOwner(email: string)
    requires SafeSegment(EmailPrefix(email))
    ensures RouteUsername(Pathname(ProfileLink(email))) == Some(EmailPrefix(email))
    ensures IsOwner(Some(email), RouteUsername(Pathname(ProfileLink(email))).value)
  {
    var link := ProfileLink(email);
    PathnameOfPlainText(link);
    var prefix := EmailPrefix(email);
    assert link[..|ProfileRoot|] == ProfileRoot;
    assert link[|ProfileRoot|..] == prefix;
    assert prefix[|prefix| - 1] in prefix;
  }

  lemma {:induction false} PathnameOfPlainText(s: string)
    requires '?' !in s && '#' !in s
    ensures Pathname(s) == s
  {
    if |s| > 0 {
      assert s[0] in s;
      assert forall c | c in s[1..] :: c in s;
      PathnameOfPlainText(s[1..]);
    }
  }

  /** The link reaches no profile page when the email prefix is empty... */
  lemma EmptyPrefixHasNoPage()
    ensures RouteUsername(Pathname(ProfileLink("@x"))) == None
  {
    assert EmailPrefix("@x") == "";
    assert ProfileLink("@x") == ProfileRoot;
    PathnameOfPlainText(ProfileRoot);
  }

  /** ... or contains a '/' with something other than '/' after it. */
  lemma SlashPrefixHasNoPage()
    ensures RouteUsername(Pathname(ProfileLink("a/b@x"))) == None
  {
    var local := "a/b";
    assert local + "@x" == "a/b@x";
    InnerSlashHasNoPage(local, "@x", 1, 2);
  }

  /** An email whose local part has a '/' followed, somewhere later, by a
      character other than '/' gets a link that matches no profile page. */
  lemma InnerSlashHasNoPage(local: string, rest: string, i: nat, j: nat)
    requires '@' !in local && '?' !in local && '#' !in local
    requires |rest| > 0 && rest[0] == '@'
    requires i < j < |local| && local[i] == '/' && local[j] != '/'
    ensures RouteUsername(Pathname(ProfileLink(local + rest))) == None
  {
    PrefixOfAddress(local, rest);
    var link := ProfileRoot + local;
    assert ProfileLink(local + rest) == link;
    assert '?' !in link && '#' !in link;
    PathnameOfPlainText(link);
    assert link[..|ProfileRoot|] == ProfileRoot && link[|ProfileRoot|..] == local;
    var segment := TrimSlashes(local);
    assert |segment| > j;
    assert segment[i] == '/';
  }

  // ---------------------------------------------------------------------
  // Loading the page

  /** The page's state: `loading`, the parsed reply shown as the post list
      (a listing, or whatever object the server answered), and `error`. */
  datatype View = View(loading: bool, userPosts: Backend.Payload, error: Option<string>)

  const InitialView: View := View(true, Backend.Listing({}), None)

  const LoadError: string := "Failed to load user posts."

  /** The `userEmail` the server reads from the request `fetchUserPosts`
      sends for a signed-in user (never the route's `username`). The email
      is written into the URL unencoded, so the query syntax acts on it:
      only plain text is sure to arrive intact. */
  function UserQuery(email: string): (r: Option<string>)
    ensures QueryString.Plain(email) ==> r == Some(email)
  {
    QueryString.ReceivedParam(email)
  }

  /** The request as evidently intended, with the email passed through
      `encodeURIComponent`: the server reads exactly the email. */
  function UserQueryIntended(email: string): (r: Option<string>)
    ensures r == Some(email)
  {
    QueryString.EncodedReceived(email);
    QueryString.ReceivedParam(QueryString.EncodeComponent(email))
  }

  /** A reply as the client parses it. */
  function Parsed(p: Backend.Payload): Backend.Payload
  {
    match p
    case Message(fields) => Backend.Message(Serialize(fields))
    case Listing(docs) => Backend.Listing(set d | d in docs :: Serialize(d))
  }

  /** `fetchUserPosts`. `reply` is what the server answered, None when the
      request or the parsing of its body failed. With nobody signed in it
      only clears `loading`. Otherwise the parsed reply becomes the list,
      whatever its status (the status is not checked), or, on failure, the
      error is set and the list kept. It always ends with `loading` false. */
  function FetchUserPosts(v: View, user: Option<string>, reply: Option<Backend.Reply>): (r: View)
    ensures !r.loading
    ensures user.None? ==> r.userPosts == v.userPosts && r.error == v.error
    ensures user.Some? && reply.Some? ==> r.userPosts == Parsed(reply.value.body) && r.error == v.error
    ensures user.Some? && reply.None? ==> r.userPosts == v.userPosts && r.error == Some(LoadError)
  {
    if user.None? then v.(loading := false)
    else
      match reply
      case Some(rep) => v.(loading := false, userPosts := Parsed(rep.body))
      case None => v.(loading := false, error := Some(LoadError))
  }
}

=== FILE: query.dfy ===
/**
 * The `userEmail` query parameter on its way from the profile page to the
 * server. The client writes the email into the request URL; the server's
 * query parser (Express 4's default, the `qs` library) cuts the parameter's
 * value out of the query string, reads '+' as a space and percent-decodes
 * it as `decodeURIComponent` does (the Decode operation of section 19.2.6 of
 * ECMAScript, with UTF-8 as in section 3 of RFC 3629). `encodeURIComponent`
 * is modelled as well, as the inverse of that decoding.
 */
module QueryString {
  import opened Wrappers
  import ObjectIds

  type Byte = b: int | 0 <= b < 256

  // ---------------------------------------------------------------------
  // UTF-8

  /** A Unicode scalar value: a code point that is not a surrogate. */
  predicate IsScalar(v: int)
  {
    0 <= v < 0xD800 || 0xE000 <= v < 0x11_0000
  }

  /** The UTF-8 octets of a scalar value. */
  function Utf8(v: int): (bs: seq<Byte>)
    requires IsScalar(v)
    ensures 1 <= |bs| <= 4
    ensures v < 0x80 <==> |bs| == 1
  {
    if v < 0x80 then [v]
    else if v < 0x800 then [0xC0 + v / 64, 0x80 + v % 64]
    else if v < 0x1_0000 then [0xE0 + v / 4096, 0x80 + (v / 64) % 64, 0x80 + v % 64]
    else [0xF0 + v / 262144, 0x80 + (v / 4096) % 64, 0x80 + (v / 64) % 64, 0x80 + v % 64]
  }

  /** The length of the UTF-8 sequence an octet starts: 0 for a character
      of its own, 1 for a continuation octet, 5 for an octet that starts no
      sequence. */
  function LeadingOnes(b: Byte): nat
  {
    if b < 0x80 then 0
    else if b < 0xC0 then 1
    else if b < 0xE0 then 2
    else if b < 0xF0 then 3
    else if b < 0xF8 then 4
    else 5
  }

  predicate IsContinuation(b: Byte)
  {
    0x80 <= b < 0xC0
  }

  /** The code point the payload bits of a 2- to 4-octet sequence spell. */
  function Payload(octets: seq<Byte>): int
    requires 2 <= |octets| <= 4
  {
    var b0: int, b1: int := octets[0], octets[1];
    if |octets| == 2 then (b0 % 32) * 64 + b1 % 64
    else
      var b2: int := octets[2];
      if |octets| == 3 then ((b0 % 16) * 64 + b1 % 64) * 64 + b2 % 64
      else
        var b3: int := octets[3];
        (((b0 % 8) * 64 + b1 % 64) * 64 + b2 % 64) * 64 + b3 % 64
  }

  /** Every scalar value's multi-octet encoding announces its length in its
      first octet, continues with continuation octets and spells the value. */
  lemma Utf8Decodes(v: int)
    requires IsScalar(v) && v >= 0x80
    ensures 2 <= |Utf8(v)| <= 4 && LeadingOnes(Utf8(v)[0]) == |Utf8(v)|
    ensures forall i | 1 <= i < |Utf8(v)| :: IsContinuation(Utf8(v)[i])
    ensures Payload(Utf8(v)) == v
  {
    if v < 0x800 {
      Utf8Two(v);
    } else if v < 0x1_0000 {
      Utf8Three(v);
    } else {
      Utf8Four(v);
    }
  }

  lemma Utf8Two(v: int)
    requires 0x80 <= v < 0x800
    ensures Utf8(v) == [0xC0 + v / 64, 0x80 + v % 64]
    ensures LeadingOnes(Utf8(v)[0]) == 2 && IsContinuation(Utf8(v)[1])
    ensures Payload(Utf8(v)) == v
  {
    var q, r := v / 64, v % 64;
    assert v == q * 64 + r;
    assert 2 <= q < 32;
    assert (0xC0 + q) % 32 == q;
    assert (0x80 + r) % 64 == r;
  }

  lemma Utf8Three(v: int)
    requires 0x800 <= v < 0x1_0000 && IsScalar(v)
    ensures Utf8(v) == [0xE0 + v / 4096, 0x80 + (v / 64) % 64, 0x80 + v % 64]
    ensures LeadingOnes(Utf8(v)[0]) == 3 && IsContinuation(Utf8(v)[1]) && IsContinuation(Utf8(v)[2])
    ensures Payload(Utf8(v)) == v
  {
    var q, r := v / 64, v % 64;
    var p, m := q / 64, q % 64;
    assert v == q * 64 + r;
    assert q == p * 64 + m;
    assert p == v / 4096;
    assert 32 <= q < 1024;
    assert 0 <= p < 16;
    assert (0xE0 + p) % 16 == p;
    assert (0x80 + m) % 64 == m;
    assert (0x80 + r) % 64 == r;
  }

  lemma Utf8Four(v: int)
    requires 0x1_0000 <= v < 0x11_0000
    ensures Utf8(v) == [0xF0 + v / 262144, 0x80 + (v / 4096) % 64, 0x80 + (v / 64) % 64, 0x80 + v % 64]
    ensures LeadingOnes(Utf8(v)[0]) == 4
    ensures IsContinuation(Utf8(v)[1]) && IsContinuation(Utf8(v)[2]) && IsContinuation(Utf8(v)[3])
    ensures Payload(Utf8(v)) == v
  {
    var q, r := v / 64, v % 64;
    var p, m := q / 64, q % 64;
    var t, n := p / 64, p % 64;
    assert v == q * 64 + r;
    assert q == p * 64 + m;
    assert p == t * 64 + n;
    assert p == v / 4096 && t == v / 262144;
    assert 1024 <= q < 17408;
    assert 16 <= p < 272;
    assert 0 <= t < 5;
    assert (0xF0 + t) % 8 == t;
    assert (0x80 + n) % 64 == n;
    assert (0x80 + m) % 64 == m;
    assert (0x80 + r) % 64 == r;
  }

  // ---------------------------------------------------------------------
  // Percent-decoding

  /** The octet a leading `%HH` escape spells. */
  function EscapedByte(s: string): (r: Option<Byte>)
    ensures r.Some? ==> |s| >= 3 && s[0] == '%'
  {
    if |s| >= 3 && s[0] == '%' && ObjectIds.HexValue(s[1]).Some? && ObjectIds.HexValue(s[2]).Some?
    then Some(16 * ObjectIds.HexValue(s[1]).value + ObjectIds.HexValue(s[2]).value)
    else None
  }

  /** `n` escapes of continuation octets at the front of `s`. */
  function Continuations(s: string, n: nat): (r: Option<seq<Byte>>)
    ensures r.Some? ==> |r.value| == n && 3 * n <= |s|
    ensures r.Some? ==> forall i | 0 <= i < n :: IsContinuation(r.value[i])
    decreases n
  {
    if n == 0 then Some([])
    else
      match EscapedByte(s)
      case None => None
      case Some(b) =>
        if !IsContinuation(b) then None
        else
          match Continuations(s[3..], n - 1)
          case None => None
          case Some(bs) => Some([b] + bs)
  }

  function Prepend(prefix: string, r: Option<string>): Option<string>
  {
    match r
    case Some(t) => Some(prefix + t)
    case None => None
  }

  /** `decodeURIComponent`: text outside escapes is kept, an escape below
      0x80 is that character, and a sequence of escapes that is the UTF-8
      encoding of a scalar value is that character. None stands for the
      `URIError` it throws otherwise: a '%' without two hexadecimal digits,
      a stray or missing continuation octet, an over-long form, a surrogate
      or a value beyond U+10FFFF. */
  function DecodeComponent(s: string): Option<string>
    decreases |s|
  {
    if |s| == 0 then Some("")
    else if s[0] != '%' then Prepend([s[0]], DecodeComponent(s[1..]))
    else
      match EscapedByte(s)
      case None => None
      case Some(b) =>
        var n := LeadingOnes(b);
        if n == 0 then Prepend([b as char], DecodeComponent(s[3..]))
        else if n == 1 || n > 4 then None
        else
          match Continuations(s[3..], n - 1)
          case None => None
          case Some(tail) =>
            var v := Payload([b] + tail);
            if IsScalar(v) && Utf8(v) == [b] + tail then Prepend([v as char], DecodeComponent(s[3 * n..]))
            else None
  }

  /** Text without a '%' decodes to itself. */
  lemma {:induction false} DecodePlain(s: string)
    requires forall i | 0 <= i < |s| :: s[i] != '%'
    ensures DecodeComponent(s) == Some(s)
  {
    if |s| > 0 {
      DecodePlain(s[1..]);
      assert [s[0]] + s[1..] == s;
    }
  }

  // ---------------------------------------------------------------------
  // Percent-encoding

  /** The characters `encodeURIComponent` leaves as they are. */
  predicate Unreserved(c: char)
  {
    || 'A' <= c <= 'Z' || 'a' <= c <= 'z' || '0' <= c <= '9'
    || c == '-' || c == '_' || c == '.' || c == '!' || c == '~' || c == '*' || c == '\'' || c == '(' || c == ')'
  }

  /** The upper-case digit an escape is written with. */
  function UpperHexDigit(n: ObjectIds.Nibble): (c: char)
    ensures ObjectIds.HexValue(c) == Some(n)
    ensures Unreserved(c)
  {
    if n < 10 then ('0' as int + n) as char else ('A' as int + n - 10) as char
  }

  function Escape(b: Byte): (e: string)
    ensures |e| == 3 && e[0] == '%' && Unreserved(e[1]) && Unreserved(e[2])
  {
    ['%', UpperHexDigit(b / 16), UpperHexDigit(b % 16)]
  }

  function EscapeAll(bs: seq<Byte>): (e: string)
    ensures |e| == 3 * |bs|
    ensures forall i | 0 <= i < |e| :: e[i] == '%' || Unreserved(e[i])
  {
    if |bs| == 0 then "" else Escape(bs[0]) + EscapeAll(bs[1..])
  }

  function EncodeChar(c: char): (e: string)
    ensures forall i | 0 <= i < |e| :: e[i] == '%' || Unreserved(e[i])
  {
    if Unreserved(c) then [c] else EscapeAll(Utf8(c as int))
  }

  /** `encodeURIComponent`: what it writes holds only unreserved characters
      and the '%' of escapes. */
  function EncodeComponent(s: string): (r: string)
    ensures forall i | 0 <= i < |r| :: r[i] == '%' || Unreserved(r[i])
  {
    if |s| == 0 then "" else EncodeChar(s[0]) + EncodeComponent(s[1..])
  }

  lemma EscapeFront(b: Byte, rest: string)
    ensures EscapedByte(Escape(b) + rest) == Some(b)
    ensures (Escape(b) + rest)[3..] == rest
  {
  }

  lemma {:induction false} ContinuationsOf(bs: seq<Byte>, rest: string)
    requires forall i | 0 <= i < |bs| :: IsContinuation(bs[i])
    ensures Continuations(EscapeAll(bs) + rest, |bs|) == Some(bs)
  {
    if |bs| > 0 {
      var tail := EscapeAll(bs[1..]) + rest;
      assert EscapeAll(bs) + rest == Escape(bs[0]) + tail;
      EscapeFront(bs[0], tail);
      ContinuationsOf(bs[1..], rest);
      assert [bs[0]] + bs[1..] == bs;
    }
  }

  /** Decoding undoes the encoding of one character. */
  lemma DecodeEncodedChar(c: char, rest: string)
    ensures DecodeComponent(EncodeChar(c) + rest) == Prepend([c], DecodeComponent(rest))
  {
    if Unreserved(c) {
      assert (EncodeChar(c) + rest)[1..] == rest;
    } else if c as int < 0x80 {
      DecodeEscapedAscii(c, rest);
    } else {
      DecodeEscapedMultiByte(c, rest);
    }
  }

  lemma DecodeEscapedAscii(c: char, rest: string)
    requires !Unreserved(c) && c as int < 0x80
    ensures DecodeComponent(EncodeChar(c) + rest) == Prepend([c], DecodeComponent(rest))
  {
    var v := c as int;
    var bs := Utf8(v);
    assert bs == [v];
    var e := EncodeChar(c) + rest;
    assert e == Escape(bs[0]) + (EscapeAll(bs[1..]) + rest);
    EscapeFront(bs[0], EscapeAll(bs[1..]) + rest);
    assert e[3..] == rest;
    assert v as char == c;
  }

  lemma DecodeEscapedMultiByte(c: char, rest: string)
    requires !Unreserved(c) && c as int >= 0x80
    ensures DecodeComponent(EncodeChar(c) + rest) == Prepend([c], DecodeComponent(rest))
  {
    var bs := Utf8(c as int);
    var e := EncodeChar(c) + rest;
    EncodedFront(c, rest);
    EncodedContinuations(c, rest);
    SliceAfterEscapes(e, EscapeAll(bs[1..]) + rest, rest, |bs|);
    DecodeMultiByteFront(e, bs[0], bs[1..], c as int, rest);
  }

  lemma SliceAfterEscapes(e: string, tail: string, rest: string, n: nat)
    requires 1 <= n && |e| >= 3 && e[3..] == tail
    requires 3 * (n - 1) <= |tail| && tail[3 * (n - 1)..] == rest
    ensures 3 * n <= |e| && e[3 * n..] == rest
  {
  }

  /** The first escape of an encoded multi-byte character spells its
      leading octet, which announces the sequence's length. */
  lemma EncodedFront(c: char, rest: string)
    requires !Unreserved(c) && c as int >= 0x80
    ensures 2 <= |Utf8(c as int)| <= 4 && LeadingOnes(Utf8(c as int)[0]) == |Utf8(c as int)|
    ensures Utf8(c as int) == [Utf8(c as int)[0]] + Utf8(c as int)[1..]
    ensures Payload([Utf8(c as int)[0]] + Utf8(c as int)[1..]) == c as int
    ensures EscapedByte(EncodeChar(c) + rest) == Some(Utf8(c as int)[0])
    ensures (EncodeChar(c) + rest)[3..] == EscapeAll(Utf8(c as int)[1..]) + rest
  {
    var bs := Utf8(c as int);
    Utf8Decodes(c as int);
    assert [bs[0]] + bs[1..] == bs;
    var tail := EscapeAll(bs[1..]) + rest;
    assert EncodeChar(c) + rest == Escape(bs[0]) + tail;
    EscapeFront(bs[0], tail);
  }

  /** The remaining escapes spell its continuation octets. */
  lemma EncodedContinuations(c: char, rest: string)
    requires !Unreserved(c) && c as int >= 0x80
    ensures Continuations(EscapeAll(Utf8(c as int)[1..]) + rest, |Utf8(c as int)| - 1) == Some(Utf8(c as int)[1..])
    ensures (EscapeAll(Utf8(c as int)[1..]) + rest)[3 * (|Utf8(c as int)| - 1)..] == rest
  {
    var bs := Utf8(c as int);
    Utf8Decodes(c as int);
    ContinuationsOf(bs[1..], rest);
  }

  /** One step of decoding at an escape that starts a well-formed
      multi-byte sequence. */
  lemma DecodeMultiByteFront(e: string, b: Byte, tail: seq<Byte>, v: int, rest: string)
    requires EscapedByte(e) == Some(b) && 2 <= LeadingOnes(b) <= 4
    requires Continuations(e[3..], LeadingOnes(b) - 1) == Some(tail)
    requires v == Payload([b] + tail) && IsScalar(v) && Utf8(v) == [b] + tail
    requires 3 * LeadingOnes(b) <= |e| && e[3 * LeadingOnes(b)..] == rest
    ensures DecodeComponent(e) == Prepend([v as char], DecodeComponent(rest))
  {
  }

  /** `decodeURIComponent(encodeURIComponent(s))` is `s`. */
  lemma {:induction false} DecodeEncode(s: string)
    ensures DecodeComponent(EncodeComponent(s)) == Some(s)
  {
    if |s| > 0 {
      DecodeEncode(s[1..]);
      DecodeEncodedChar(s[0], EncodeComponent(s[1..]));
      assert [s[0]] + s[1..] == s;
    }
  }

  // ---------------------------------------------------------------------
  // The parameter as the server reads it

  /** The text before the first `stop`, all of it when there is none. */
  function Before(s: string, stop: char): (r: string)
    ensures r <= s && stop !in r
    ensures |r| < |s| ==> s[|r|] == stop
  {
    if |s| == 0 || s[0] == stop then "" else [s[0]] + Before(s[1..], stop)
  }

  function PlusAsSpace(s: string): (r: string)
    ensures |r| == |s|
    ensures forall i | 0 <= i < |s| :: r[i] == if s[i] == '+' then ' ' else s[i]
  {
    if |s| == 0 then "" else [if s[0] == '+' then ' ' else s[0]] + PlusAsSpace(s[1..])
  }

  /** The decoder `qs` applies to a value: '+' is a space, then
      `decodeURIComponent`, falling back to the text as it stands when that
      throws. */
  function DecodeValue(s: string): string
  {
    var t := PlusAsSpace(s);
    match DecodeComponent(t)
    case Some(d) => d
    case None => t
  }

  /** `s` holds "]=", where `qs` ends a parameter's name. */
  predicate HasBracketEquals(s: string)
  {
    exists i | 0 <= i && i + 1 < |s| :: s[i] == ']' && s[i + 1] == '='
  }

  /** The value the server's query parser reads for a parameter whose text
      in the URL, after its `name=`, is `text`. A '#' starts the fragment,
      which is not sent; a '&' starts the next parameter. When the
      parameter's part holds "]=", `qs` takes the name to run up to there,
      so the parameter is not read at all. */
  function ReceivedParam(text: string): (r: Option<string>)
    ensures Plain(text) ==> r == Some(text)
    ensures r.None? ==> HasBracketEquals(text)
  {
    var part := Before(Before(text, '#'), '&');
    if HasBracketEquals(part) then
      BracketInPrefix(part, text);
      None
    else if Plain(text) then
      PlainPart(text);
      Some(DecodeValue(part))
    else
      Some(DecodeValue(part))
  }

  /** Text the query syntax does not touch: no '#', '&', '+' or '%', and no "]=". */
  predicate Plain(s: string)
  {
    (forall i | 0 <= i < |s| :: s[i] != '#' && s[i] != '&' && s[i] != '+' && s[i] != '%') && !HasBracketEquals(s)
  }

  lemma BracketInPrefix(part: string, text: string)
    requires part <= Before(text, '#') && HasBracketEquals(part)
    ensures HasBracketEquals(text)
  {
    var i :| 0 <= i && i + 1 < |part| && part[i] == ']' && part[i + 1] == '=';
    assert text[i] == part[i] && text[i + 1] == part[i + 1];
  }

  /** Plain text is its own part and decodes to itself. */
  lemma PlainPart(s: string)
    requires Plain(s)
    ensures Before(Before(s, '#'), '&') == s && DecodeValue(s) == s
  {
    BeforeAbsent(s, '#');
    BeforeAbsent(s, '&');
    assert PlusAsSpace(s) == s;
    DecodePlain(s);
  }

  lemma BeforeAbsent(s: string, stop: char)
    requires forall i | 0 <= i < |s| :: s[i] != stop
    ensures Before(s, stop) == s
  {
  }

  lemma {:induction false} BeforeAppend(p: string, u: string, stop: char)
    requires stop !in p
    ensures Before(p + u, stop) == p + Before(u, stop)
  {
    if |p| == 0 {
      assert p + u == u;
    } else {
      assert p[0] in p;
      var pu := p + u;
      assert pu[0] == p[0] && pu[1..] == p[1..] + u;
      assert Before(pu, stop) == [p[0]] + Before(pu[1..], stop);
      BeforeAppend(p[1..], u, stop);
      assert [p[0]] + (p[1..] + Before(u, stop)) == p + Before(u, stop);
    }
  }

  /** A '#' (the fragment, which is not sent) or a '&' (the next
      parameter) ends the value: nothing after it is read. */
  lemma ReceivedStopsAt(p: string, c: char, t: string)
    requires c == '#' || c == '&'
    requires '#' !in p && '&' !in p
    ensures ReceivedParam(p + [c] + t) == ReceivedParam(p)
  {
    var text := p + ([c] + t);
    assert p + [c] + t == text;
    BeforeAppend(p, [c] + t, '#');
    BeforeAppend(p, "", '&');
    BeforeAppend(p, "", '#');
    assert p + "" == p;
    if c == '&' {
      assert Before([c] + t, '#') == [c] + Before(t, '#');
      BeforeAppend(p, [c] + Before(t, '#'), '&');
    }
    assert Before(Before(text, '#'), '&') == p;
  }

  /** Text with no '#', '&', '%' or ']' arrives with its '+'s read as spaces. */
  lemma PlusesReceived(s: string)
    requires forall i | 0 <= i < |s| :: s[i] != '#' && s[i] != '&' && s[i] != '%' && s[i] != ']'
    ensures ReceivedParam(s) == Some(PlusAsSpace(s))
  {
    BeforeAbsent(s, '#');
    BeforeAbsent(s, '&');
    DecodePlain(PlusAsSpace(s));
  }

  /** ... while a '+' written into the URL arrives as a space. */
  lemma PlusReadAsSpace(s: string, i: nat)
    requires forall j | 0 <= j < |s| :: s[j] != '#' && s[j] != '&' && s[j] != '%' && s[j] != ']'
    requires i < |s| && s[i] == '+'
    ensures ReceivedParam(s).Some? && |ReceivedParam(s).value| == |s| && ReceivedParam(s).value[i] == ' '
    ensures ReceivedParam(s) != Some(s)
  {
    PlusesReceived(s);
  }

  /** An encoded value arrives as the text that was encoded, whatever it holds. */
  lemma EncodedReceived(s: string)
    ensures ReceivedParam(EncodeComponent(s)) == Some(s)
  {
    var e := EncodeComponent(s);
    EscapedAbsent(e, '#');
    EscapedAbsent(e, '&');
    EscapedAbsent(e, '+');
    EscapedAbsent(e, ']');
    DecodeEncode(s);
    UntouchedReceived(e);
  }

  /** Encoded text holds no character outside the unreserved set but '%'. */
  lemma EscapedAbsent(e: string, c: char)
    requires forall i | 0 <= i < |e| :: e[i] == '%' || Unreserved(e[i])
    requires c != '%' && !Unreserved(c)
    ensures forall i | 0 <= i < |e| :: e[i] != c
  {
  }

  /** Text without '#', '&', '+' or ']' reaches `decodeURIComponent` as it is. */
  lemma UntouchedReceived(e: string)
    requires forall i | 0 <= i < |e| :: e[i] != '#'
    requires forall i | 0 <= i < |e| :: e[i] != '&'
    requires forall i | 0 <= i < |e| :: e[i] != '+'
    requires forall i | 0 <= i < |e| :: e[i] != ']'
    ensures DecodeComponent(e).Some? ==> ReceivedParam(e) == DecodeComponent(e)
  {
    BeforeAbsent(e, '#');
    BeforeAbsent(e, '&');
    assert PlusAsSpace(e) == e;
  }
}

=== FILE: resize.dfy ===
/**
 * The dimension rule of the composer's image compression: an image wider
 * than it is tall has its width capped at 800, any other image has its
 * height capped at 600, and the other axis is scaled by the same factor.
 * The scale factor is an exact rational here; the canvas it sizes holds
 * whole pixels, because the canvas `width`/`height` attributes are WebIDL
 * `unsigned long`s, which truncate a fractional value, and are reflected
 * content attributes, which store their default (300 x 150) for a value
 * above 2^31 - 1. Neither wrap-around nor the default is ever reached:
 * both sides of the fitted size are at most 800 (`CanvasIsTruncatedFit`).
 */
module Resize {

  const MaxWidth: real := 800.0
  const MaxHeight: real := 600.0

  /** Values an `unsigned long` can hold: 0 .. 2^32 - 1. */
  const UnsignedLongRange: nat := 0x1_0000_0000

  datatype Size = Size(width: real, height: real)

  predicate NonNegative(s: Size)
  {
    s.width >= 0.0 && s.height >= 0.0
  }

  /** The orientation test of the rule: strictly wider than tall. A square
      takes the height branch. */
  predicate Landscape(s: Size)
  {
    s.width > s.height
  }

  function Min(a: real, b: real): real
  {
    if a <= b then a else b
  }

  /** The target size `compressImage` computes from the image's natural size.
      The contract determines the result completely: the orientation-selected
      axis is clamped to its maximum, the aspect ratio is kept exactly, and
      nothing is ever enlarged. */
  function Fit(s: Size): (r: Size)
    requires NonNegative(s)
    ensures NonNegative(r)
    ensures Landscape(s) ==> r.width == Min(s.width, MaxWidth)
    ensures !Landscape(s) ==> r.height == Min(s.height, MaxHeight)
    ensures r.width * s.height == r.height * s.width
    ensures r.width <= s.width && r.height <= s.height
  {
    if s.width > s.height then
      if s.width > MaxWidth then Size(MaxWidth, s.height * (MaxWidth / s.width)) else s
    else
      if s.height > MaxHeight then Size(s.width * (MaxHeight / s.height), MaxHeight) else s
  }

  /** A size that already satisfies its own branch's bound is left alone, and
      only such a size is. */
  lemma FitUnchanged(s: Size)
    requires NonNegative(s)
    ensures Fit(s) == s <==> (if Landscape(s) then s.width <= MaxWidth else s.height <= MaxHeight)
  {
  }

  /** Applying the rule to its own (rational) output changes nothing. */
  lemma FitIdempotent(s: Size)
    requires NonNegative(s)
    ensures Fit(Fit(s)) == Fit(s)
  {
    var r := Fit(s);
    if Landscape(s) && s.width > MaxWidth {
      assert r == Size(MaxWidth, s.height * (MaxWidth / s.width));
      ScaledBelow(s.height, s.width, MaxWidth);
    } else if !Landscape(s) && s.height > MaxHeight {
      assert r == Size(s.width * (MaxHeight / s.height), MaxHeight);
      ScaledAtMost(s.width, s.height, MaxHeight);
    }
  }

  /** Scaling the shorter side by `m / w` keeps it below `m`. */
  lemma ScaledBelow(h: real, w: real, m: real)
    requires 0.0 <= h < w && m > 0.0
    ensures h * (m / w) < m
  {
    var k := m / w;
    assert k * w == m;
    assert h * k < w * k;
  }

  /** Scaling a side no longer than `b` by `m / b` keeps it at most `m`. */
  lemma ScaledAtMost(a: real, b: real, m: real)
    requires 0.0 <= a <= b && m > 0.0 && b > 0.0
    ensures a * (m / b) <= m
  {
    var k := m / b;
    assert k * b == m;
    assert a * k <= b * k;
  }

  /** Only the selected axis is bounded: a 900 x 899 image keeps a height of
      about 799, above the 600 maximum. */
  lemma OtherAxisUnbounded()
    ensures Fit(Size(900.0, 899.0)).height > MaxHeight
  {
    assert Fit(Size(900.0, 899.0)) == Size(800.0, 899.0 * (800.0 / 900.0));
  }

  /** WebIDL conversion of a non-negative number to `unsigned long`: drop the
      fraction, then reduce modulo 2^32. */
  function ToUnsignedLong(x: real): (n: nat)
    requires x >= 0.0
    ensures n < UnsignedLongRange
    ensures x < UnsignedLongRange as real ==> n as real <= x < n as real + 1.0
  {
    x.Floor % UnsignedLongRange
  }

  /** The largest value a reflected `unsigned long` attribute stores. */
  const MaxReflected: nat := 0x7FFF_FFFF

  const DefaultWidth: nat := 300
  const DefaultHeight: nat := 150

  /** Setting a reflected `unsigned long` attribute such as the canvas's
      `width`: the WebIDL conversion, then the attribute's default in place
      of a value above 2^31 - 1. */
  function Reflect(x: real, default: nat): (n: nat)
    requires x >= 0.0
    ensures n <= MaxReflected || n == default
    ensures x < (MaxReflected + 1) as real ==> n as real <= x < n as real + 1.0
    ensures (MaxReflected + 1) as real <= x < UnsignedLongRange as real ==> n == default
  {
    var v := ToUnsignedLong(x);
    if v <= MaxReflected then v else default
  }

  /** The canvas `compressImage` draws into, in whole pixels. */
  datatype Canvas = Canvas(width: nat, height: nat)

  /** The canvas for an image of natural size `w` x `h`. */
  function CanvasFor(w: nat, h: nat): (c: Canvas)
  {
    var r := Fit(Size(w as real, h as real));
    Canvas(Reflect(r.width, DefaultWidth), Reflect(r.height, DefaultHeight))
  }

  /** Neither side of a fitted size exceeds 800, so the canvas is the fitted
      size with its fractions dropped: the 32-bit conversion never wraps and
      the attribute's default is never stored. */
  lemma CanvasIsTruncatedFit(w: nat, h: nat)
    ensures Fit(Size(w as real, h as real)).width <= MaxWidth
    ensures Fit(Size(w as real, h as real)).height <= MaxWidth
    ensures CanvasFor(w, h) == Canvas(Fit(Size(w as real, h as real)).width.Floor, Fit(Size(w as real, h as real)).height.Floor)
  {
    var s := Size(w as real, h as real);
    var r := Fit(s);
    if Landscape(s) && s.width > MaxWidth {
      ScaledBelow(s.height, s.width, MaxWidth);
    } else if !Landscape(s) && s.height > MaxHeight {
      ScaledAtMost(s.width, s.height, MaxHeight);
    }
    assert r.width <= MaxWidth && r.height <= MaxWidth;
    ReflectSmall(r.width, DefaultWidth);
    ReflectSmall(r.height, DefaultHeight);
  }

  lemma ReflectSmall(x: real, default: nat)
    requires 0.0 <= x <= MaxWidth
    ensures Reflect(x, default) == x.Floor
  {
    assert x.Floor <= 800;
  }

  /** No canvas is larger than the image, the width of a landscape image
      never exceeds 800, and the height of any other image never exceeds 600. */
  lemma CanvasBounds(w: nat, h: nat)
    ensures CanvasFor(w, h).width <= w && CanvasFor(w, h).height <= h
    ensures w > h ==> CanvasFor(w, h).width <= 800
    ensures w <= h ==> CanvasFor(w, h).height <= 600
  {
    if w > h && w > 800 {
      CanvasLandscapeCapped(w, h);
      assert h * 800 / w <= h by { QuotientBelow(800, h, w); assert h * 800 == 800 * h; }
    } else if h >= w && h > 600 {
      CanvasPortraitCapped(w, h);
      assert w * 600 / h <= w by { QuotientBelow(600, w, h); assert w * 600 == 600 * w; }
    } else {
      CanvasWithinBound(w, h);
    }
  }

  /** A landscape image wider than 800 gets a canvas exactly 800 wide whose
      height is the scaled height rounded down. */
  lemma CanvasLandscapeCapped(w: nat, h: nat)
    requires w > h && w > 800
    ensures CanvasFor(w, h) == Canvas(800, h * 800 / w)
  {
    var r := Fit(Size(w as real, h as real));
    assert r == Size(800.0, h as real * (800.0 / w as real));
    CanvasIsTruncatedFit(w, h);
    ScaledFloor(h, 800, w);
  }

  /** Any other image taller than 600 gets a canvas exactly 600 high whose
      width is the scaled width rounded down. */
  lemma CanvasPortraitCapped(w: nat, h: nat)
    requires h >= w && h > 600
    ensures CanvasFor(w, h) == Canvas(w * 600 / h, 600)
  {
    var r := Fit(Size(w as real, h as real));
    assert r == Size(w as real * (600.0 / h as real), 600.0);
    CanvasIsTruncatedFit(w, h);
    ScaledFloor(w, 600, h);
  }

  /** An image within its branch's bound keeps its natural size. */
  lemma CanvasWithinBound(w: nat, h: nat)
    requires if w > h then w <= 800 else h <= 600
    ensures CanvasFor(w, h) == Canvas(w, h)
  {
    assert Fit(Size(w as real, h as real)) == Size(w as real, h as real);
    CanvasIsTruncatedFit(w, h);
  }

  /** `a * m / b` does not exceed `m` when `a <= b`. */
  lemma QuotientBelow(a: nat, m: nat, b: nat)
    requires 0 < b && a <= b
    ensures a * m / b <= m
  {
    assert a * m <= b * m by { MulLeq(a, b, m); }
    assert (a * m / b) * b <= a * m;
    if a * m / b > m {
      MulLeq(m + 1, a * m / b, b);
      assert false;
    }
  }

  lemma MulLeq(a: nat, b: nat, k: nat)
    requires a <= b
    ensures a * k <= b * k
  {
  }

  /** Truncating the rational `a * (m / b)` gives the integer quotient `a * m / b`. */
  lemma ScaledFloor(a: nat, m: nat, b: nat)
    requires 0 < b
    requires a <= b
    ensures (a as real * (m as real / b as real)).Floor == a * m / b
  {
    var x := a as real * (m as real / b as real);
    assert x == (a * m) as real / b as real;
    FloorOfQuotient(a * m, b);
  }

  lemma FloorOfQuotient(n: nat, b: nat)
    requires 0 < b
    ensures (n as real / b as real).Floor == n / b
  {
    var q, r := n / b, n % b;
    assert n == q * b + r;
    var x := n as real / b as real;
    assert x == q as real + r as real / b as real;
    assert 0.0 <= r as real / b as real < 1.0;
  }

  /** Worked sizes. 1600 x 1200 becomes 800 x 600, 400 x 300 is kept,
      300 x 1000 becomes 180 x 600. The fraction is dropped rather than
      rounded and there is no minimum of one pixel: 700 x 1001 gives a width
      of 419 (419.58...), and 1000 x 1 gives a canvas 0 pixels high. */
  lemma WorkedSizes()
    ensures CanvasFor(1600, 1200) == Canvas(800, 600)
    ensures CanvasFor(400, 300) == Canvas(400, 300)
    ensures CanvasFor(300, 1000) == Canvas(180, 600)
    ensures CanvasFor(700, 1001) == Canvas(419, 600)
    ensures CanvasFor(1000, 1) == Canvas(800, 0)
  {
    CanvasLandscapeCapped(1600, 1200);
    CanvasWithinBound(400, 300);
    CanvasPortraitCapped(300, 1000);
    CanvasPortraitCapped(700, 1001);
    CanvasLandscapeCapped(1000, 1);
  }
}

=== FILE: wrappers.dfy ===
/** Option and Result, the failure-carrying datatypes used throughout the model. */
module Wrappers {

  datatype Option<+T> = None | Some(value: T)

  /** The outcome of an operation that can fail with an error value. */
  datatype Result<+R, +E> = Success(value: R) | Failure(error: E)
}
